=== FILE: README.md ===
# Corvo data ingest and instancing, modelled in Dafny

Corvo shows single-cell RNA-seq data in VR. Each cell of an AnnData (`.h5ad`)
file becomes a sphere, placed at its 3D UMAP embedding coordinate. It is
coloured either by a categorical annotation (`jet` colour map) or by the
expression of a chosen gene (`hot` colour map). This project models the
parts of that pipeline that compute something.

- `AnnotationsIngest.kt`:
  - `cscReader` densifies one gene column of the compressed-sparse-column expression matrix.
  - The `init` density filter builds `nonZeroGenes`.
  - `fetchGeneExpression` densifies a gene selection and rescales each column into 0..10.
  - `umapReader3D` regroups the flat embedding array into triplets.
  - `h5adAnnotationReader` dispatches on the element type of a dataset and decodes categorical codes through their label table.
- `XPlot.kt`:
  - The annotation `init` block normalises each annotation's codes by their largest code and keeps the ascending distinct values as the legend key (`normMap`).
  - `masterCount` splits the cells into batches of 10000, one "master" sphere per batch.
  - `loadDataset` creates the masters and places every cell, with its metadata and centred, scaled position, in its master.
  - `updateInstancingColor` recolours every instance and bumps each master's `MaxInstanceUpdateCount`.
  - `resetVisibility` shows every instance again and clears its selection.

Modules, one per file:

- `Wrappers`: `Option`, `Result` and the error kinds. An exception the source throws is a `Failure`.
- `SparseColumns`: `cscReader` and the density filter.
- `GeneExpression`: `fetchGeneExpression`.
- `Embedding`: `umapReader3D`.
- `Annotations`: `h5adAnnotationReader`.
- `AnnotationEncoding`: the annotation `init` block of `XPlot`.
- `Instancing`: `masterCount`, `loadDataset`, `updateInstancingColor`, the update counters and `resetVisibility`.

Numbers:

- Kotlin `Float` is modelled as `real`. Kotlin `ceil` is modelled exactly, as an integer.
- Annotation codes (`Byte`) and indices are modelled as `int`.

The HDF5 file is modelled as data, not read:

- the three CSC arrays `Csc`;
- the flat embedding array;
- a `Store` that maps each path to a `Dataset`. A `Dataset` holds the type markers its description contains and what the string, integer and float readers return for it.

`XPlot`'s scene graph is modelled as a map from master keys to `Master` values. Each `Master` holds its instances and its update counter. Each `Instance` holds:

- position;
- annotation metadata;
- the `selected` flag;
- visibility;
- the dirty flag;
- colour.

Behaviour of the code worth knowing:

- `h5adAnnotationReader` only checks that the character at index 4 of the path is `/`. Any path of that shape is read, whether or not it lies under `/obs`, `/var` or `/uns`. A path shorter than 5 characters throws.
- A categorical annotation whose `_categorical` label table is missing reads as an empty list: the fallback looks every code up in an empty map and keeps nothing.
- `fetchGeneExpression` scales by `ceil(max)`, so a rescaled column's maximum is at most 10, and below 10 when `max` is not a whole number.
- A densified column has at most as many nonzero entries as the column stores. A repeated row overwrites the earlier entry and a stored zero stays zero, so the counts are equal only for columns with distinct rows and nonzero stored values.
- For the 4-cell, 3-gene matrix with data `[5, 2]`, indices `[1, 3]` and indptr `[0, 1, 1, 2]`, gene 0 densifies to `[0, 5, 0, 0]`, gene 1 to all zeros and gene 2 to `[0, 0, 0, 2]`.

## Model

| member | source | states |
|---|---|---|
| SparseColumns.ReadColumn | src/main/kotlin/graphics/scenery/xtradimensionvr/AnnotationsIngest.kt:163-176 | A column densifies without an exception exactly when its `indptr` slice exists and every stored row is a valid cell index. The result always has `numCells` entries. |
| SparseColumns.ReadColumnEntries | src/main/kotlin/graphics/scenery/xtradimensionvr/AnnotationsIngest.kt:167-174 | Every row of the dense column holds the value of the last stored entry naming that row, or 0 when none does. |
| SparseColumns.ColumnDependsOnlyOnSlice | src/main/kotlin/graphics/scenery/xtradimensionvr/AnnotationsIngest.kt:169-174 | The dense column depends only on the column's own `[indptr[col], indptr[col+1])` slice of `data` and `indices`. |
| SparseColumns.ReadColumnNonzeroCount | src/main/kotlin/graphics/scenery/xtradimensionvr/AnnotationsIngest.kt:172-174 | The dense column has at most `indptr[col+1] - indptr[col]` nonzero entries, and exactly that many for a canonical column. |
| SparseColumns.ExampleColumns | src/main/kotlin/graphics/scenery/xtradimensionvr/AnnotationsIngest.kt:163-176 | For data `[5, 2]`, indices `[1, 3]` and indptr `[0, 1, 1, 2]` over 4 cells, genes 0, 1 and 2 densify to `[0, 5, 0, 0]`, all zeros and `[0, 0, 0, 2]`, and reading gene 3 throws. |
| SparseColumns.DensityFilter | src/main/kotlin/graphics/scenery/xtradimensionvr/AnnotationsIngest.kt:27-37 | The loop throws exactly when `indptr` has no entry past some gene. Otherwise it returns, in ascending order, exactly the genes whose share of stored entries exceeds 0.2. With no cells, it returns exactly the genes with stored entries. |
| GeneExpression.RescaleBounds | src/main/kotlin/graphics/scenery/xtradimensionvr/AnnotationsIngest.kt:59-62 | Scaling a column by `10 / ceil(max)` keeps every entry at most 10, and keeps a nonnegative entry nonnegative. |
| GeneExpression.NormalizeExpressions | src/main/kotlin/graphics/scenery/xtradimensionvr/AnnotationsIngest.kt:52-64 | The normalising loop as written. It fails on an empty column. It also fails exactly when a gene with a negative rounded-up maximum precedes one with a positive maximum. Otherwise each column is rescaled when its maximum is positive and kept as it is otherwise. `maxList` holds, in gene order, 10 for each gene whose rounded-up maximum is 0 and `ceil(max)` for each positive one, skipping negative ones. |
| GeneExpression.MaximaAfterNegative | src/main/kotlin/graphics/scenery/xtradimensionvr/AnnotationsIngest.kt:55-60 | For genes with maxima 3, -2 and 0, `maxList` is `[3, 10]`: the negative gene adds nothing, and the later zero gene still adds 10. |
| GeneExpression.NegativeThenPositiveExample | src/main/kotlin/graphics/scenery/xtradimensionvr/AnnotationsIngest.kt:55-61 | The two single-cell genes with maxima -2 and 3 meet the failure condition of the loop as written. |
| GeneExpression.MaximaAligned | src/main/kotlin/graphics/scenery/xtradimensionvr/AnnotationsIngest.kt:55-60 | When no gene's rounded-up maximum is negative, `maxList` has one display maximum per gene, in gene order. |
| GeneExpression.NormalizeByOwnMax | src/main/kotlin/graphics/scenery/xtradimensionvr/AnnotationsIngest.kt:52-64 | The corrected loop fails only on an empty column. Every gene is shown as intended: rescaled by its own `ceil(max)` when that is positive, and untouched otherwise. `maxList` holds, in gene order, 10 for each gene whose rounded-up maximum is 0 and `ceil(max)` for each positive one, skipping negative ones. When no maximum is negative it has one entry per gene. |
| GeneExpression.ReadColumns | src/main/kotlin/graphics/scenery/xtradimensionvr/AnnotationsIngest.kt:50 | Densifying the selection succeeds exactly when every selected gene is readable, and otherwise fails with an index error. The result holds each gene's dense column, in selection order. |
| GeneExpression.FetchGeneExpression | src/main/kotlin/graphics/scenery/xtradimensionvr/AnnotationsIngest.kt:43-68 | An empty selection is replaced by the 21 draws. With the corrected normalising loop (see Findings), the call succeeds exactly when every selected gene is readable and named and there is at least one cell. Names and columns follow the selection. Each column is its densified gene displayed as the normalising loop intends. `maxList` holds the display maxima of the selected genes in selection order. When no selected gene has a negative rounded-up maximum, entry `g` is 10 if gene `g`'s rounded-up maximum is 0 and `ceil(max)` of gene `g` otherwise. A failure is an index error or an empty column. With nonnegative stored values the call succeeds whenever the selection resolves, and every displayed entry lies in [0, 10]. |
| GeneExpression.DisplayedInDomain | src/main/kotlin/graphics/scenery/xtradimensionvr/AnnotationsIngest.kt:55-62 | A nonnegative column is displayed within [0, 10]. It is all zero when its rounded-up maximum is 0. |
| GeneExpression.NonnegativeSelection | src/main/kotlin/graphics/scenery/xtradimensionvr/AnnotationsIngest.kt:50-56 | With nonnegative stored values and at least one cell, every selected column densifies to `numCells` entries whose rounded-up maximum is nonnegative. |
| Embedding.Flatten | src/main/kotlin/graphics/scenery/xtradimensionvr/AnnotationsIngest.kt:75-99 | Writing coordinates back out gives three entries per cell, x, y and z at `3i`, `3i+1` and `3i+2`. |
| Embedding.UmapReader3D | src/main/kotlin/graphics/scenery/xtradimensionvr/AnnotationsIngest.kt:75-99 | The reader succeeds exactly when the array is nonempty and its length is a multiple of 3; otherwise the final `cellUMAP[0..2]` read throws. Each cell `i` is the triplet at `3i`, and flattening the result gives back the array. |
| Embedding.RegroupFlattened | src/main/kotlin/graphics/scenery/xtradimensionvr/AnnotationsIngest.kt:75-99 | Flattening a nonempty embedding gives an array the reader accepts and regroups into the same coordinates. |
| Annotations.SelectBranch | src/main/kotlin/graphics/scenery/xtradimensionvr/AnnotationsIngest.kt:113-159 | The first type marker in the `when` order decides the branch. An `INTEGER(1)` dataset is decoded through its label table exactly when strings are asked for. No marker means no branch. |
| Annotations.DecodeCategorical | src/main/kotlin/graphics/scenery/xtradimensionvr/AnnotationsIngest.kt:120-125 | Decoding keeps at most one label per code, and every label it keeps comes from the table. |
| Annotations.DecodeCategoricalAppend | src/main/kotlin/graphics/scenery/xtradimensionvr/AnnotationsIngest.kt:124-125 | Decoding is applied code by code: it distributes over concatenation of the code list. |
| Annotations.DecodeCategoricalTotal | src/main/kotlin/graphics/scenery/xtradimensionvr/AnnotationsIngest.kt:120-125 | When every code has a label, decoding keeps every code, in order, as its label. |
| Annotations.DecodeCategoricalNone | src/main/kotlin/graphics/scenery/xtradimensionvr/AnnotationsIngest.kt:127-129 | Codes with no label decode to nothing. |
| Annotations.ReadAnnotation | src/main/kotlin/graphics/scenery/xtradimensionvr/AnnotationsIngest.kt:102-161 | A path shorter than 5 characters throws an index error. A longer path without `/` at index 4 is rejected. A missing dataset fails. Otherwise the read succeeds. String datasets read verbatim. Categorical reads give each code's label from the `_categorical` table, dropping codes without one. The raw `int8`, `int16`, `int32`, `int64` and boolean branches give the codes verbatim. The `float32` and `float64` branches give the numbers verbatim. A dataset with no known marker reads as empty. |
| Annotations.CategoricalRoundTrip | src/main/kotlin/graphics/scenery/xtradimensionvr/AnnotationsIngest.kt:118-134 | Reading an `int8` annotation as strings equals reading its raw codes and looking each up in the label table, when every code has a label. |
| Annotations.MissingTableReadsEmpty | src/main/kotlin/graphics/scenery/xtradimensionvr/AnnotationsIngest.kt:127-129 | With no `_categorical` table, a categorical annotation read as strings is empty. |
| AnnotationEncoding.Insert | src/main/kotlin/graphics/scenery/xtradimensionvr/XPlot.kt:86 | Inserting into a strictly ascending sequence keeps it strictly ascending and adds exactly the new value. |
| AnnotationEncoding.SortedDistinct | src/main/kotlin/graphics/scenery/xtradimensionvr/XPlot.kt:86 | `toSet().sortedArray()` is strictly ascending and has exactly the values of its input. |
| AnnotationEncoding.MaxCode | src/main/kotlin/graphics/scenery/xtradimensionvr/XPlot.kt:81 | `maxOrNull()` of a nonempty column is an entry of it and no entry exceeds it. |
| AnnotationEncoding.Normalize | src/main/kotlin/graphics/scenery/xtradimensionvr/XPlot.kt:77-92 | With a positive maximum, the normalised column times the maximum gives back the codes, and the key holds exactly the normalised values, ascending. A zero maximum gives zeros and the key `[0]`. An empty column or a negative maximum gives zeros and no key. |
| AnnotationEncoding.NormalizedRange | src/main/kotlin/graphics/scenery/xtradimensionvr/XPlot.kt:83-86 | With a positive maximum, some cell normalises to exactly 1, none exceeds 1, and nonnegative codes stay nonnegative. |
| AnnotationEncoding.NormalizeSeparatesCodes | src/main/kotlin/graphics/scenery/xtradimensionvr/XPlot.kt:84-86 | Two cells get the same normalised value exactly when they have the same code, so the legend key has one entry per distinct code. |
| AnnotationEncoding.EncodeColumns | src/main/kotlin/graphics/scenery/xtradimensionvr/XPlot.kt:75-95 | `annotationArray` holds, in annotation order, the normalised column of each annotation, each as long as its codes. |
| AnnotationEncoding.LegendKeys | src/main/kotlin/graphics/scenery/xtradimensionvr/XPlot.kt:86-89 | `normMap` only has keys that are annotation names. |
| AnnotationEncoding.LegendKeysLookup | src/main/kotlin/graphics/scenery/xtradimensionvr/XPlot.kt:75-95 | With distinct names, an annotation that produces a key has exactly that key in `normMap` under its name, and one that produces none is absent. |
| Instancing.MasterCount | src/main/kotlin/graphics/scenery/xtradimensionvr/XPlot.kt:98-99 | `masterCount` is the ceiling of cells / 10000: enough masters for every cell, and no empty one. |
| Instancing.Partition | src/main/kotlin/graphics/scenery/xtradimensionvr/XPlot.kt:129-157 | The `resettingCounter`/`parentIterator` loop gives cell `i` master `1 + i / 10000` and offset `i % 10000`, always a master in `1..masterCount`. |
| Instancing.SlotInRange | src/main/kotlin/graphics/scenery/xtradimensionvr/XPlot.kt:167-176 | Every cell's slot names an existing master and an offset inside that master's batch, so `instances[resettingCounter]` is in bounds. |
| Instancing.SlotCovers | src/main/kotlin/graphics/scenery/xtradimensionvr/XPlot.kt:122-157 | Every offset of every master's batch is the slot of a cell. |
| Instancing.SlotInjective | src/main/kotlin/graphics/scenery/xtradimensionvr/XPlot.kt:135-157 | Different cells never share a slot. |
| Instancing.Metadata | src/main/kotlin/graphics/scenery/xtradimensionvr/XPlot.kt:144-148 | A cell's metadata has an entry for every annotation name and no other key. |
| Instancing.MetadataLastWrite | src/main/kotlin/graphics/scenery/xtradimensionvr/XPlot.kt:144-148 | A name holds the code of the last annotation with that name. |
| Instancing.MetadataRecordsCodes | src/main/kotlin/graphics/scenery/xtradimensionvr/XPlot.kt:144-148 | With distinct names, every annotation's code for the cell is recorded under its name. |
| Instancing.Placement | src/main/kotlin/graphics/scenery/xtradimensionvr/XPlot.kt:151-152 | A position, divided by 0.3 and shifted back by the centre, gives the cell's embedding coordinate. |
| Instancing.NewMasters | src/main/kotlin/graphics/scenery/xtradimensionvr/XPlot.kt:122-125 | The masters are keyed exactly `1..masterCount`. Each is empty, with update counter 1. |
| Instancing.LoadDataset | src/main/kotlin/graphics/scenery/xtradimensionvr/XPlot.kt:119-157 | Loading succeeds exactly when every annotation has a code for every cell. Otherwise reading `rawAnnotations[annCount][counter]` throws. The masters are keyed `1..masterCount`, hold their batch sizes, and have counter 1. Every cell's instance sits at its slot, with its position and metadata, visible, unselected and uncoloured. |
| Instancing.CountBeforeAll | src/main/kotlin/graphics/scenery/xtradimensionvr/XPlot.kt:135-157 | After all cells, each master has received exactly its batch size. |
| Instancing.AnnotationScalarDecodes | src/main/kotlin/graphics/scenery/xtradimensionvr/XPlot.kt:186-190 | In annotation mode, with `annotationArray` built by the annotation `init` block and a positive largest code, the sampled scalar times that largest code gives back the cell's raw code. |
| Instancing.GeneScalarDecodes | src/main/kotlin/graphics/scenery/xtradimensionvr/XPlot.kt:183-194 | In gene mode, when the picked gene's column is its densified expression rescaled by its display maximum `top`, the sampled scalar times `top` gives back the cell's densified expression. |
| Instancing.ColourScalarInUnitRange | src/main/kotlin/graphics/scenery/xtradimensionvr/XPlot.kt:189-194 | With nonnegative codes normalised as the annotation `init` does, and expressions in [0, 10], the sampled scalar lies in [0, 1]. |
| Instancing.ColourFor | src/main/kotlin/graphics/scenery/xtradimensionvr/XPlot.kt:189-199 | A laser-selected cell gets its material colour. Every other cell gets the `jet` map in annotation mode or the `hot` map in gene mode, sampled at its scalar. |
| Instancing.Recoloured | src/main/kotlin/graphics/scenery/xtradimensionvr/XPlot.kt:176-199 | A visited instance is marked dirty and gets its colour. Nothing else about it changes. |
| Instancing.SetInstanceEffect | src/main/kotlin/graphics/scenery/xtradimensionvr/XPlot.kt:176-177 | Writing the instance at one cell's slot changes that cell and no other, and keeps the layout. |
| Instancing.UpdateInstancingColor | src/main/kotlin/graphics/scenery/xtradimensionvr/XPlot.kt:166-206 | On masters laid out by `loadDataset`, the pass succeeds exactly when there are no cells or every column covers all cells and the picker is valid. Every cell is recoloured at its slot. The layout is kept, and every master's counter goes up by one. |
| Instancing.BumpCounters | src/main/kotlin/graphics/scenery/xtradimensionvr/XPlot.kt:203-205 | Each master's `MaxInstanceUpdateCount` goes up by one, and nothing else changes. |
| Instancing.Unselected | src/main/kotlin/graphics/scenery/xtradimensionvr/XPlot.kt:487-490 | A reset instance is visible and has no `selected` entry. Nothing else about it changes. |
| Instancing.ResetFrom | src/main/kotlin/graphics/scenery/xtradimensionvr/XPlot.kt:486-491 | The sweep over keys `i..last` clears exactly the masters in that range and skips absent keys. |
| Instancing.ResetVisibility | src/main/kotlin/graphics/scenery/xtradimensionvr/XPlot.kt:485-492 | `resetVisibility` clears every master keyed `0..size` and leaves the others as they are. |
| Instancing.ResetVisibilityClearsAll | src/main/kotlin/graphics/scenery/xtradimensionvr/XPlot.kt:485-492 | On laid-out masters, every cell ends up visible and unselected, and the layout and counters are kept. |

## Left out

- HDF5 access (`HDF5Factory`, `getDataSetInformation`, the typed readers): the file is a parameter holding what those readers return.
- The debugging `println` calls and logger output.
- Floating-point rounding. Floats are exact reals, so:
  - the density threshold: the source compares a `Float` share with the `Double` 0.2, and the float `0.2f` widened to `Double` exceeds 0.2, so a gene whose share is exactly one fifth (or rounds to `0.2f`) is kept by the source and dropped by the model;
  - the product with 0.3 is exact;
  - the float ceiling in `masterCount` is an exact integer ceiling.
- The 32-bit `Int` and 8-bit `Byte` ranges: counts and codes are unbounded integers.
- The random gene draws of `fetchGeneExpression`: they are the parameter `draws`, of length 21.
- The caller's gene list being filled in place: the selection comes back in the result.
- `fetchCenterOfMass` and `fetchCellLabelPosition`: the centre is a parameter of `LoadDataset`.
- `Colormap.sample`: a colour is the symbolic `Sampled(palette, scalar)`.
- `createSphereKey`, `generateLabels`, `loadEnvironment`, the text boards, lasers and the rest of the scene set-up: they draw geometry and compute nothing the model states.
- `addMasterProperties` shaders and materials. Only its `MaxInstanceUpdateCount = 1` is kept.
- `precompGenesReader`: its loop body is empty.
- `reload`, `reloadCo` and the `Mutex`, threads and coroutines around them, including their reset of `genePicker` to 0. Concurrency is out of scope.
- The `ModelMatrix` and `Color` closures: an instance stores its colour value instead.
- Partial updates before an exception. When `loadDataset` or `updateInstancingColor` throws part way, the model returns only the failure, not the half-updated masters.
- The constructor calls `AnnotationsIngest()` and `UMAPReader3D()`, and the loop over a `Triple` in `XPlot.kt:59-61` and `XPlot.kt:183`, do not type-check as written. The model takes the embedding, the annotation columns and the expression columns as inputs instead.
- Instancing.UpdateInstancingColor: requires `LaidOut`, the layout `loadDataset` establishes, because the source relies on it as a class invariant and does not check it.
- GeneExpression.FetchGeneExpression: uses the corrected normalising loop `NormalizeByOwnMax`. The source's loop also throws `IndexOutOfBoundsException` when a gene with a negative rounded-up maximum comes before one with a positive maximum. That as-written behaviour is modelled separately by `NormalizeExpressions` and recorded under Findings.
- AnnotationEncoding.LegendKeys: states only that keys are annotation names. The exact contents are in `LegendKeysLookup`, under distinct annotation names.
- Instancing.Metadata: the exact per-name codes are stated under distinct annotation names, or for the last annotation with a name.

## Findings

| source | as written | input that shows it | evidently intended | confidence | as-written member | corrected member |
|---|---|---|---|---|---|---|
| src/main/kotlin/graphics/scenery/xtradimensionvr/AnnotationsIngest.kt:55-61 | A gene whose rounded-up maximum is negative adds nothing to `maxList`. Each later gene with a positive maximum still reads `maxList[gene]`, so its index runs past the end of the list and throws `IndexOutOfBoundsException`. | Two single-cell genes with values -2 and 3 | Scale each gene by the maximum just appended for it, so a negative gene never shifts the lookup | not executed; medium: only reachable with negative stored expression values | GeneExpression.NormalizeExpressions, GeneExpression.NegativeThenPositiveExample | GeneExpression.NormalizeByOwnMax |

`GeneExpression.FetchGeneExpression` uses the corrected loop.

=== FILE: annotation_encoding.dfy ===
/** The annotation `init` block of `XPlot`: each raw annotation column of
    category codes is divided by its largest code to give the value the
    categorical colour map is sampled at, and the ascending distinct
    normalised values are kept as the legend key of that annotation.
 */
module AnnotationEncoding {
  import opened Wrappers

  /** Strictly ascending reals: sorted, with no value twice. */
  predicate StrictlyAscending(s: seq<real>) {
    forall i, j :: 0 <= i < j < |s| ==> s[i] < s[j]
  }

  /** `x` put into its place in a strictly ascending sequence, unless present. */
  function Insert(x: real, s: seq<real>): (r: seq<real>)
    requires StrictlyAscending(s)
    ensures StrictlyAscending(r)
    ensures forall y :: y in r <==> y == x || y in s
  {
    if |s| == 0 then [x]
    else if x < s[0] then [x] + s
    else if x == s[0] then s
    else
      var rest := Insert(x, s[1..]);
      assert forall k :: 0 <= k < |rest| ==> s[0] < rest[k] by {
        forall k | 0 <= k < |rest|
          ensures s[0] < rest[k]
        {
          assert rest[k] in rest;
        }
      }
      [s[0]] + rest
  }

  /** `toSet().toFloatArray().sortedArray()`: the distinct values, ascending. */
  function SortedDistinct(s: seq<real>): (r: seq<real>)
    ensures StrictlyAscending(r)
    ensures forall y :: y in r <==> y in s
  {
    if |s| == 0 then []
    else Insert(s[|s| - 1], SortedDistinct(s[..|s| - 1]))
  }

  /** `maxOrNull()` of a nonempty column of codes. */
  function MaxCode(raw: seq<int>): (m: int)
    requires |raw| > 0
    ensures forall i :: 0 <= i < |raw| ==> raw[i] <= m
    ensures exists i :: 0 <= i < |raw| && raw[i] == m
  {
    if |raw| == 1 then raw[0]
    else
      var rest := MaxCode(raw[1..]);
      if raw[0] >= rest then raw[0] else rest
  }

  /** Division by a positive number, undone. */
  lemma DivideThenScale(a: real, b: real)
    requires b > 0.0
    ensures (a / b) * b == a
  {
  }

  lemma ScaledBounds(x: real, b: real, a: real)
    requires b > 0.0 && x * b == a
    ensures a <= b ==> x <= 1.0
    ensures a >= 0.0 ==> x >= 0.0
    ensures a == b ==> x == 1.0
  {
  }

  /** `norm` scaled back up by `max` is `raw`, entry by entry. */
  predicate ScalesBack(norm: seq<real>, max: int, raw: seq<int>) {
    |norm| == |raw| && forall i :: 0 <= i < |raw| ==> norm[i] * (max as real) == raw[i] as real
  }

  /** `x` scaled back up by `max` is the code `c`. */
  predicate ScaledBackTo(x: real, max: int, c: int) {
    x * (max as real) == c as real
  }

  /** The value `x` at entry `i` of a column that scales back to `raw`, scaled back. */
  lemma ScalesBackAt(norm: seq<real>, max: int, raw: seq<int>, i: int, x: real)
    requires ScalesBack(norm, max, raw) && 0 <= i < |raw| && x == norm[i]
    ensures ScaledBackTo(x, max, raw[i])
  {
  }

  /** Each code divided by `max`. */
  function Ratios(raw: seq<int>, max: int): (r: seq<real>)
    requires max > 0
    ensures ScalesBack(r, max, raw)
  {
    var r := seq(|raw|, i requires 0 <= i < |raw| => (raw[i] as real) / (max as real));
    RatiosScale(raw, max, r);
    r
  }

  lemma RatiosScale(raw: seq<int>, max: int, r: seq<real>)
    requires max > 0 && |r| == |raw|
    requires forall i :: 0 <= i < |raw| ==> r[i] == (raw[i] as real) / (max as real)
    ensures forall i :: 0 <= i < |raw| ==> r[i] * (max as real) == raw[i] as real
  {
    forall i | 0 <= i < |raw|
      ensures r[i] * (max as real) == raw[i] as real
    {
      DivideThenScale(raw[i] as real, max as real);
    }
  }

  /** The normalised column (`annotationArray`'s entry) and the legend key
      stored in `normMap`, if any. */
  datatype Encoded = Encoded(norm: seq<real>, key: Option<seq<real>>)

  /** One step of the `init` loop. A positive maximum divides every code by
      it; a zero maximum leaves the zero column and stores the key `[0]`; an
      empty column or a negative maximum leaves the zero column and stores
      no key. */
  function Normalize(raw: seq<int>): (e: Encoded)
    ensures |e.norm| == |raw|
    ensures |raw| > 0 && MaxCode(raw) > 0 ==>
              && ScalesBack(e.norm, MaxCode(raw), raw)
              && e.key.Some? && StrictlyAscending(e.key.value)
              && (forall y :: y in e.key.value <==> y in e.norm)
    ensures |raw| > 0 && MaxCode(raw) == 0 ==> (forall i :: 0 <= i < |raw| ==> e.norm[i] == 0.0) && e.key == Some([0.0])
    ensures (|raw| == 0 || MaxCode(raw) < 0) ==> (forall i :: 0 <= i < |raw| ==> e.norm[i] == 0.0) && e.key.None?
  {
    var zeros := seq(|raw|, _ => 0.0);
    if |raw| == 0 then Encoded(zeros, None)
    else
      var max := MaxCode(raw);
      if max > 0 then
        var norm := Ratios(raw, max);
        Encoded(norm, Some(SortedDistinct(norm)))
      else if max == 0 then Encoded(zeros, Some([0.0]))
      else Encoded(zeros, None)
  }

  /** Scaling back by the largest code: that code sits at exactly 1, no
      value exceeds 1, and nonnegative codes stay nonnegative. */
  lemma ScalesBackRange(norm: seq<real>, max: int, raw: seq<int>, k: int)
    requires max > 0 && ScalesBack(norm, max, raw)
    requires 0 <= k < |raw| && raw[k] == max
    requires forall i :: 0 <= i < |raw| ==> raw[i] <= max
    ensures norm[k] == 1.0
    ensures forall i :: 0 <= i < |raw| ==> norm[i] <= 1.0
    ensures forall i :: 0 <= i < |raw| && raw[i] >= 0 ==> norm[i] >= 0.0
  {
    forall i | 0 <= i < |raw|
      ensures norm[i] <= 1.0
      ensures raw[i] >= 0 ==> norm[i] >= 0.0
      ensures raw[i] == max ==> norm[i] == 1.0
    {
      ScaledBounds(norm[i], max as real, raw[i] as real);
    }
  }

  /** Scaling by one positive factor separates different codes. */
  lemma ScalesBackInjective(norm: seq<real>, max: int, raw: seq<int>, i: int, j: int)
    requires max > 0 && ScalesBack(norm, max, raw)
    requires 0 <= i < |raw| && 0 <= j < |raw|
    ensures norm[i] == norm[j] <==> raw[i] == raw[j]
  {
    var m := max as real;
    assert norm[i] * m == raw[i] as real;
    assert norm[j] * m == raw[j] as real;
    if raw[i] == raw[j] {
      CancelFactor(norm[i], norm[j], m);
    }
  }

  lemma CancelFactor(x: real, y: real, m: real)
    requires m > 0.0 && x * m == y * m
    ensures x == y
  {
  }

  /** With a positive maximum, the largest code normalises to exactly 1,
      no value exceeds 1, and a nonnegative code stays nonnegative. */
  lemma NormalizedRange(raw: seq<int>)
    requires |raw| > 0 && MaxCode(raw) > 0
    ensures exists i :: 0 <= i < |raw| && Normalize(raw).norm[i] == 1.0
    ensures forall i :: 0 <= i < |raw| ==> Normalize(raw).norm[i] <= 1.0
    ensures forall i :: 0 <= i < |raw| && raw[i] >= 0 ==> Normalize(raw).norm[i] >= 0.0
  {
    var k :| 0 <= k < |raw| && raw[k] == MaxCode(raw);
    ScalesBackRange(Normalize(raw).norm, MaxCode(raw), raw, k);
  }

  /** Two codes of one column normalise to the same legend value exactly when
      they are equal, so the legend key has one entry per distinct code. */
  lemma NormalizeSeparatesCodes(raw: seq<int>, i: int, j: int)
    requires |raw| > 0 && MaxCode(raw) > 0
    requires 0 <= i < |raw| && 0 <= j < |raw|
    ensures Normalize(raw).norm[i] == Normalize(raw).norm[j] <==> raw[i] == raw[j]
  {
    ScalesBackInjective(Normalize(raw).norm, MaxCode(raw), raw, i, j);
  }

  /** An annotation as `XPlot` holds it: its name and raw codes. */
  datatype AnnotationColumn = AnnotationColumn(name: string, raw: seq<int>)

  /** No name occurs twice. */
  predicate DistinctNames(cols: seq<AnnotationColumn>) {
    forall k, k' :: 0 <= k < k' < |cols| ==> cols[k].name != cols[k'].name
  }

  /** `annotationArray`: the normalised column of every annotation, in order. */
  function EncodeColumns(cols: seq<AnnotationColumn>): (arrays: seq<seq<real>>)
    ensures |arrays| == |cols|
    ensures forall k :: 0 <= k < |cols| ==> |arrays[k]| == |cols[k].raw|
    ensures forall k :: 0 <= k < |cols| ==> arrays[k] == Normalize(cols[k].raw).norm
  {
    if |cols| == 0 then []
    else EncodeColumns(cols[..|cols| - 1]) + [Normalize(cols[|cols| - 1].raw).norm]
  }

  /** `normMap`: the legend key of every annotation that has one, put in
      annotation order (a later name overwrites an earlier one). */
  function LegendKeys(cols: seq<AnnotationColumn>): (keys: map<string, seq<real>>)
    ensures forall name :: name in keys ==> exists k :: 0 <= k < |cols| && cols[k].name == name
  {
    if |cols| == 0 then map[]
    else
      var front := LegendKeys(cols[..|cols| - 1]);
      var last := cols[|cols| - 1];
      assert forall k :: 0 <= k < |cols| - 1 ==> cols[..|cols| - 1][k] == cols[k];
      match Normalize(last.raw).key
      case Some(key) => front[last.name := key]
      case None => front
  }

  /** With distinct names, `normMap` holds exactly the keys the annotations
      produce, each under its own name. */
  lemma {:induction false} LegendKeysLookup(cols: seq<AnnotationColumn>, k: int)
    requires DistinctNames(cols) && 0 <= k < |cols|
    ensures var key := Normalize(cols[k].raw).key;
            && (key.Some? ==> cols[k].name in LegendKeys(cols) && LegendKeys(cols)[cols[k].name] == key.value)
            && (key.None? ==> cols[k].name !in LegendKeys(cols))
  {
    var front := cols[..|cols| - 1];
    assert DistinctNames(front);
    if k < |cols| - 1 {
      assert front[k] == cols[k];
      LegendKeysLookup(front, k);
      assert cols[k].name != cols[|cols| - 1].name;
    } else {
      assert forall k' :: 0 <= k' < |front| ==> front[k'].name != cols[k].name;
    }
  }
}

=== FILE: annotations.dfy ===
/** `h5adAnnotationReader`: read a one-dimensional dataset of an AnnData file
    (`/obs/<field>`, `/var/index`, `/uns/<field>_categorical`, ...),
    dispatching on the element type the file reports for it, and decoding
    `int8` category codes through their label table when strings are wanted.
 */
module Annotations {
  import opened Wrappers

  /** The type markers the reader looks for in a dataset's description. */
  datatype TypeTag = StringTag | Int8Tag | Int16Tag | Int32Tag | Int64Tag | Float32Tag | Float64Tag | BooleanTag

  /** The branches of the reader's `when`. */
  datatype Branch =
    | ReadStrings
    | DecodeCategories
    | ReadBytes
    | ReadShorts
    | ReadInts
    | ReadLongs
    | ReadFloats
    | ReadDoubles
    | ReadBooleans

  /** A dataset as the reader sees it: the type markers its description
      contains, and what the string, integer and floating-point readers of
      the HDF5 library return for it. */
  datatype Dataset = Dataset(tags: set<TypeTag>, strings: seq<string>, codes: seq<int>, reals: seq<real>)

  /** The file: the datasets by path. */
  type Store = map<string, Dataset>

  /** One element of the list the reader returns. */
  datatype Value = Text(text: string) | Code(code: int) | Number(number: real)

  /** The branches that return the integer reader's values as they are:
      `int8` read raw, `int16`, `int32`, `int64` and boolean. */
  predicate ReadsCodes(b: Branch) {
    b == ReadBytes || b == ReadShorts || b == ReadInts || b == ReadLongs || b == ReadBooleans
  }

  /** The branches that return the floating-point reader's values as they are. */
  predicate ReadsNumbers(b: Branch) {
    b == ReadFloats || b == ReadDoubles
  }

  /** The position of a marker in the order the `when` tests them. */
  function Rank(t: TypeTag): nat {
    match t
    case StringTag => 0
    case Int8Tag => 1
    case Int16Tag => 2
    case Int32Tag => 3
    case Int64Tag => 4
    case Float32Tag => 5
    case Float64Tag => 6
    case BooleanTag => 7
  }

  /** The marker whose presence selects a branch. */
  function TagOf(b: Branch): TypeTag {
    match b
    case ReadStrings => StringTag
    case DecodeCategories => Int8Tag
    case ReadBytes => Int8Tag
    case ReadShorts => Int16Tag
    case ReadInts => Int32Tag
    case ReadLongs => Int64Tag
    case ReadFloats => Float32Tag
    case ReadDoubles => Float64Tag
    case ReadBooleans => BooleanTag
  }

  /** The `when` of the reader: the first test that matches decides. */
  function SelectBranch(tags: set<TypeTag>, asString: bool): (b: Option<Branch>)
    ensures b.None? <==> tags == {}
    ensures b.Some? ==> TagOf(b.value) in tags && forall t :: t in tags ==> Rank(TagOf(b.value)) <= Rank(t)
    ensures b.Some? && TagOf(b.value) == Int8Tag ==> (b.value == DecodeCategories <==> asString)
  {
    if StringTag in tags then Some(ReadStrings)
    else if Int8Tag in tags && asString then Some(DecodeCategories)
    else if Int8Tag in tags then Some(ReadBytes)
    else if Int16Tag in tags then Some(ReadShorts)
    else if Int32Tag in tags then Some(ReadInts)
    else if Int64Tag in tags then Some(ReadLongs)
    else if Float32Tag in tags then Some(ReadFloats)
    else if Float64Tag in tags then Some(ReadDoubles)
    else if BooleanTag in tags then Some(ReadBooleans)
    else
      NoMarkerLeft(tags);
      None
  }

  lemma NoMarkerLeft(tags: set<TypeTag>)
    requires StringTag !in tags && Int8Tag !in tags && Int16Tag !in tags && Int32Tag !in tags
    requires Int64Tag !in tags && Float32Tag !in tags && Float64Tag !in tags && BooleanTag !in tags
    ensures tags == {}
  {
    forall t: TypeTag
      ensures t !in tags
    {
      match t
      case StringTag =>
      case Int8Tag =>
      case Int16Tag =>
      case Int32Tag =>
      case Int64Tag =>
      case Float32Tag =>
      case Float64Tag =>
      case BooleanTag =>
    }
  }

  /** The reader's path check: the character at index 4 must be `/`, as in
      `/obs/...`, `/var/...` and `/uns/...`. A shorter path has no index 4,
      and reading it throws before the check. */
  predicate PathAccepted(path: string) {
    |path| > 4 && path[4] == '/'
  }

  /** The label table of an annotation: `/uns/<name>_categorical`. */
  function CategoricalTablePath(name: string): string {
    "/uns/" + name + "_categorical"
  }

  /** The codes that have a label, replaced by their labels: `categoryMap`
      maps position `c` of the table to its `c`-th label, and a code missing
      from the map is skipped by `?.let`. */
  function DecodeCategorical(labels: seq<string>, codes: seq<int>): (r: seq<string>)
    ensures |r| <= |codes|
    ensures forall j :: 0 <= j < |r| ==> r[j] in labels
  {
    if |codes| == 0 then []
    else (if 0 <= codes[0] < |labels| then [labels[codes[0]]] else []) + DecodeCategorical(labels, codes[1..])
  }

  /** Decoding distributes over concatenation: each code is decoded on its own. */
  lemma {:induction false} DecodeCategoricalAppend(labels: seq<string>, a: seq<int>, b: seq<int>)
    ensures DecodeCategorical(labels, a + b) == DecodeCategorical(labels, a) + DecodeCategorical(labels, b)
  {
    if |a| > 0 {
      assert (a + b)[1..] == a[1..] + b;
      DecodeCategoricalAppend(labels, a[1..], b);
    } else {
      assert a + b == b;
    }
  }

  /** When every code has a label, decoding keeps every code, in order. */
  lemma {:induction false} DecodeCategoricalTotal(labels: seq<string>, codes: seq<int>)
    requires forall i :: 0 <= i < |codes| ==> 0 <= codes[i] < |labels|
    ensures |DecodeCategorical(labels, codes)| == |codes|
    ensures forall i :: 0 <= i < |codes| ==> DecodeCategorical(labels, codes)[i] == labels[codes[i]]
  {
    if |codes| > 0 {
      DecodeCategoricalTotal(labels, codes[1..]);
    }
  }

  /** Codes with no label at all decode to nothing. */
  lemma {:induction false} DecodeCategoricalNone(labels: seq<string>, codes: seq<int>)
    requires forall i :: 0 <= i < |codes| ==> !(0 <= codes[i] < |labels|)
    ensures DecodeCategorical(labels, codes) == []
  {
    if |codes| > 0 {
      DecodeCategoricalNone(labels, codes[1..]);
    }
  }

  /** The label table read for an annotation, or none when the file has no
      such dataset (the source catches the lookup failure and keeps its
      category map empty). */
  function LabelTable(store: Store, name: string): seq<string> {
    var table := CategoricalTablePath(name);
    if table in store then store[table].strings else []
  }

  /** Strings, as list elements. */
  function Texts(ss: seq<string>): (vs: seq<Value>)
    ensures |vs| == |ss| && forall i :: 0 <= i < |ss| ==> vs[i] == Text(ss[i])
  {
    seq(|ss|, i requires 0 <= i < |ss| => Text(ss[i]))
  }

  /** Integers, as list elements. */
  function Codes(cs: seq<int>): (vs: seq<Value>)
    ensures |vs| == |cs| && forall i :: 0 <= i < |cs| ==> vs[i] == Code(cs[i])
  {
    seq(|cs|, i requires 0 <= i < |cs| => Code(cs[i]))
  }

  /** Floating-point numbers, as list elements. */
  function Numbers(xs: seq<real>): (vs: seq<Value>)
    ensures |vs| == |xs| && forall i :: 0 <= i < |xs| ==> vs[i] == Number(xs[i])
  {
    seq(|xs|, i requires 0 <= i < |xs| => Number(xs[i]))
  }

  /** `h5adAnnotationReader(path, asString)`. */
  function ReadAnnotation(store: Store, path: string, asString: bool): (r: Result<seq<Value>>)
    ensures |path| <= 4 ==> r == Failure(IndexOutOfRange)
    ensures |path| > 4 && path[4] != '/' ==> r == Failure(NotAnnotationPath)
    ensures r.Success? <==> PathAccepted(path) && path in store
    ensures r.Failure? ==> r.error == IndexOutOfRange || r.error == NotAnnotationPath || r.error == MissingDataset
    ensures r.Success? && SelectBranch(store[path].tags, asString).None? ==> r.value == []
    ensures r.Success? && StringTag in store[path].tags ==>
              |r.value| == |store[path].strings| && forall i :: 0 <= i < |r.value| ==> r.value[i] == Text(store[path].strings[i])
    ensures r.Success? && SelectBranch(store[path].tags, asString) == Some(DecodeCategories) ==>
              |r.value| <= |store[path].codes| && forall i :: 0 <= i < |r.value| ==> r.value[i].Text?
    ensures r.Success? && SelectBranch(store[path].tags, asString) == Some(DecodeCategories) ==>
              r.value == Texts(DecodeCategorical(LabelTable(store, path[5..]), store[path].codes))
    ensures r.Success? && SelectBranch(store[path].tags, asString).Some? && ReadsCodes(SelectBranch(store[path].tags, asString).value) ==>
              |r.value| == |store[path].codes| && forall i :: 0 <= i < |r.value| ==> r.value[i] == Code(store[path].codes[i])
    ensures r.Success? && SelectBranch(store[path].tags, asString).Some? && ReadsNumbers(SelectBranch(store[path].tags, asString).value) ==>
              |r.value| == |store[path].reals| && forall i :: 0 <= i < |r.value| ==> r.value[i] == Number(store[path].reals[i])
  {
    if |path| <= 4 then Failure(IndexOutOfRange)
    else if path[4] != '/' then Failure(NotAnnotationPath)
    else if path !in store then Failure(MissingDataset)
    else
      var ds := store[path];
      match SelectBranch(ds.tags, asString)
      case None => Success([])
      case Some(b) =>
        match b
        case ReadStrings => Success(Texts(ds.strings))
        case DecodeCategories => Success(Texts(DecodeCategorical(LabelTable(store, path[5..]), ds.codes)))
        case ReadFloats => Success(Numbers(ds.reals))
        case ReadDoubles => Success(Numbers(ds.reals))
        case _ => Success(Codes(ds.codes))
  }

  /** An `int8` dataset: the string reader does not claim it, the byte reader does. */
  predicate CategoricalDataset(ds: Dataset) {
    StringTag !in ds.tags && Int8Tag in ds.tags
  }

  /** Reading a categorical annotation as strings is the same as reading its
      raw codes and looking each one up in the label table, when every code
      has a label. */
  lemma CategoricalRoundTrip(store: Store, path: string)
    requires PathAccepted(path) && path in store && CategoricalDataset(store[path])
    requires forall i :: 0 <= i < |store[path].codes| ==> 0 <= store[path].codes[i] < |LabelTable(store, path[5..])|
    ensures var raw := ReadAnnotation(store, path, false);
            var labels := LabelTable(store, path[5..]);
            && raw.Success?
            && (forall i :: 0 <= i < |raw.value| ==> raw.value[i].Code? && 0 <= raw.value[i].code < |labels|)
            && ReadAnnotation(store, path, true)
               == Success(seq(|raw.value|, i requires 0 <= i < |raw.value| => Text(labels[raw.value[i].code])))
  {
    var ds := store[path];
    var labels := LabelTable(store, path[5..]);
    DecodeCategoricalTotal(labels, ds.codes);
    var raw := ReadAnnotation(store, path, false);
    assert raw.value == seq(|ds.codes|, i requires 0 <= i < |ds.codes| => Code(ds.codes[i]));
    var decoded := DecodeCategorical(labels, ds.codes);
    assert SelectBranch(ds.tags, true) == Some(DecodeCategories);
    assert ReadAnnotation(store, path, true) == Success(seq(|decoded|, i requires 0 <= i < |decoded| => Text(decoded[i])));
    assert seq(|decoded|, i requires 0 <= i < |decoded| => Text(decoded[i]))
        == seq(|raw.value|, i requires 0 <= i < |raw.value| => Text(labels[raw.value[i].code]));
  }

  /** Without a label table a categorical annotation read as strings is
      empty: the fallback looks every code up in an empty map. */
  lemma MissingTableReadsEmpty(store: Store, path: string)
    requires PathAccepted(path) && path in store && CategoricalDataset(store[path])
    requires CategoricalTablePath(path[5..]) !in store
    ensures ReadAnnotation(store, path, true) == Success([])
  {
    DecodeCategoricalNone([], store[path].codes);
  }
}

=== FILE: embedding.dfy ===
/** `umapReader3D`: regroup the flat `/obsm/X_umap` array, three coordinates
    per cell in row-major order, into one 3D coordinate per cell.
 */
module Embedding {
  import opened Wrappers

  /** One cell's position in the 3D embedding. */
  datatype Coord = Coord(x: real, y: real, z: real)

  /** The coordinates written out back to back, as the file stores them. */
  function Flatten(cs: seq<Coord>): (a: seq<real>)
    ensures |a| == 3 * |cs|
    ensures forall i :: 0 <= i < |cs| ==> a[3 * i] == cs[i].x && a[3 * i + 1] == cs[i].y && a[3 * i + 2] == cs[i].z
  {
    if |cs| == 0 then []
    else [cs[0].x, cs[0].y, cs[0].z] + Flatten(cs[1..])
  }

  /** The reading loop. `tripletCounter` counts the entries in `cellUMAP`;
      a full triplet is flushed only when the next coordinate arrives, and the
      last one after the loop by reading `cellUMAP[0..2]`, which throws when
      fewer than three coordinates are pending (an empty array, or a length
      that is not a multiple of three). */
  method UmapReader3D(a: seq<real>) returns (r: Result<seq<Coord>>)
    ensures r.Success? <==> |a| > 0 && |a| % 3 == 0
    ensures r.Failure? ==> r.error == IndexOutOfRange
    ensures r.Success? ==> |r.value| == |a| / 3
    ensures r.Success? ==> forall i :: 0 <= i < |r.value| ==> r.value[i] == Coord(a[3 * i], a[3 * i + 1], a[3 * i + 2])
    ensures r.Success? ==> Flatten(r.value) == a
  {
    var umap: seq<Coord> := [];
    var tripletCounter := 0;
    var cellUMAP: seq<real> := [];
    var n := 0;
    while n < |a|
      invariant 0 <= n <= |a|
      invariant 0 <= tripletCounter <= 3 && |cellUMAP| == tripletCounter
      invariant n == 3 * |umap| + tripletCounter
      invariant n > 0 ==> tripletCounter > 0
      invariant cellUMAP == a[3 * |umap| .. n]
      invariant forall i :: 0 <= i < |umap| ==> umap[i] == Coord(a[3 * i], a[3 * i + 1], a[3 * i + 2])
    {
      if tripletCounter < 3 {
        cellUMAP := cellUMAP + [a[n]];
        tripletCounter := tripletCounter + 1;
      } else {
        umap := umap + [Coord(cellUMAP[0], cellUMAP[1], cellUMAP[2])];
        cellUMAP := [a[n]];
        tripletCounter := 1;
      }
      n := n + 1;
    }
    if |cellUMAP| < 3 {
      return Failure(IndexOutOfRange);
    }
    umap := umap + [Coord(cellUMAP[0], cellUMAP[1], cellUMAP[2])];
    FlattenRegrouped(a, umap);
    return Success(umap);
  }

  /** Regrouping loses nothing: writing the triplets back out reproduces the
      flat array. */
  lemma FlattenRegrouped(a: seq<real>, cs: seq<Coord>)
    requires |cs| == |a| / 3 && |a| % 3 == 0
    requires forall i :: 0 <= i < |cs| ==> cs[i] == Coord(a[3 * i], a[3 * i + 1], a[3 * i + 2])
    ensures Flatten(cs) == a
  {
    var f := Flatten(cs);
    forall j | 0 <= j < |a|
      ensures f[j] == a[j]
    {
      var i := j / 3;
      assert 0 <= i < |cs|;
      assert f[3 * i] == a[3 * i] && f[3 * i + 1] == a[3 * i + 1] && f[3 * i + 2] == a[3 * i + 2];
      assert j == 3 * i || j == 3 * i + 1 || j == 3 * i + 2;
    }
  }

  /** Flattening then regrouping is the identity on nonempty embeddings. */
  lemma RegroupFlattened(cs: seq<Coord>)
    requires |cs| > 0
    ensures var a := Flatten(cs);
            |a| > 0 && |a| % 3 == 0 && |a| / 3 == |cs|
            && forall i :: 0 <= i < |cs| ==> cs[i] == Coord(a[3 * i], a[3 * i + 1], a[3 * i + 2])
  {
  }
}

=== FILE: gene_expression.dfy ===
/** `fetchGeneExpression`: densify a selection of genes and rescale each
    column into the display domain 0..10 used by the expression colour map.
 */
module GeneExpression {
  import opened Wrappers
  import opened SparseColumns

  /** `for (i in 0..20)`: how many random genes fill an empty selection. */
  const DefaultSelectionSize := 21

  /** Top of the display domain, and the display maximum of a column whose
      rounded-up maximum is 0. */
  const DisplayTop := 10

  /** Kotlin's `ceil`, as an integer. */
  function Ceil(x: real): (c: int)
    ensures x <= c as real < x + 1.0
  {
    -((-x).Floor)
  }

  /** `maxOrNull()` of a nonempty column. */
  function ColumnMax(s: seq<real>): (m: real)
    requires |s| > 0
    ensures forall i :: 0 <= i < |s| ==> s[i] <= m
    ensures exists i :: 0 <= i < |s| && s[i] == m
  {
    if |s| == 1 then s[0]
    else
      var rest := ColumnMax(s[1..]);
      if s[0] >= rest then s[0] else rest
  }

  /** `ceil(max(column))`, the rounded-up column maximum the source scales by. */
  function CeilMax(col: seq<real>): int
    requires |col| > 0
  {
    Ceil(ColumnMax(col))
  }

  /** Every entry multiplied by `10 / top`. */
  function Rescale(col: seq<real>, top: int): (r: seq<real>)
    requires top > 0
    ensures |r| == |col|
    ensures forall i :: 0 <= i < |col| ==> r[i] * (top as real) == col[i] * (DisplayTop as real)
  {
    seq(|col|, i requires 0 <= i < |col| => col[i] * ((DisplayTop as real) / (top as real)))
  }

  /** Rescaling by the rounded-up maximum keeps every entry at most 10, and
      a nonnegative entry nonnegative. */
  lemma RescaleBounds(col: seq<real>)
    requires |col| > 0 && CeilMax(col) > 0
    ensures forall i :: 0 <= i < |col| ==> Rescale(col, CeilMax(col))[i] <= DisplayTop as real
    ensures forall i :: 0 <= i < |col| && col[i] >= 0.0 ==> Rescale(col, CeilMax(col))[i] >= 0.0
  {
    var top := CeilMax(col);
    var r := Rescale(col, top);
    forall i | 0 <= i < |col|
      ensures r[i] <= DisplayTop as real
      ensures col[i] >= 0.0 ==> r[i] >= 0.0
    {
      ScaleBound(col[i], top as real, r[i]);
    }
  }

  /** `r = c * 10 / t` with `c <= t` is at most 10, and not negative when `c` is not. */
  lemma ScaleBound(c: real, t: real, r: real)
    requires t > 0.0 && c <= t && r * t == c * 10.0
    ensures r <= 10.0
    ensures c >= 0.0 ==> r >= 0.0
  {
  }

  /** `shown` is what the normalising loop leaves for the dense column `col`:
      rescaled by `10 / ceil(max)` when that is positive, and untouched
      otherwise. */
  ghost predicate DisplayedAs(col: seq<real>, shown: seq<real>)
    requires |col| > 0
  {
    if CeilMax(col) > 0 then shown == Rescale(col, CeilMax(col)) else shown == col
  }

  /** Some gene whose rounded-up maximum is negative precedes one whose
      rounded-up maximum is positive. */
  ghost predicate NegativeBeforePositive(cols: seq<seq<real>>) {
    exists g1, g2 :: 0 <= g1 < g2 < |cols| && |cols[g1]| > 0 && |cols[g2]| > 0 && CeilMax(cols[g1]) < 0 && CeilMax(cols[g2]) > 0
  }

  /** The same, stated on the rounded-up maxima themselves. */
  predicate NegativeBeforePositiveTops(tops: seq<int>) {
    exists g1, g2 :: 0 <= g1 < g2 < |tops| && tops[g1] < 0 && tops[g2] > 0
  }

  /** What a gene with rounded-up maximum `top` adds to `maxList`, when it adds anything. */
  function DisplayMax(top: int): int {
    if top == 0 then DisplayTop else top
  }

  /** The rescaled expression columns and the per-gene display maxima. */
  datatype Normalized = Normalized(expressions: seq<seq<real>>, maxList: seq<int>)

  /** The normalising loop of `fetchGeneExpression`. A gene whose rounded-up
      maximum is negative adds nothing to `maxList`, so a later gene with a
      positive maximum reads `maxList[gene]` past its end and throws. */
  method NormalizeExpressions(cols: seq<seq<real>>) returns (r: Result<Normalized>)
    ensures r.Success? <==> (forall g :: 0 <= g < |cols| ==> |cols[g]| > 0) && !NegativeBeforePositive(cols)
    ensures r.Failure? ==> r.error == EmptyColumn || r.error == IndexOutOfRange
    ensures r.Success? ==> r.value.maxList == Maxima(Tops(cols))
    ensures r.Success? ==> |r.value.expressions| == |cols| && |r.value.maxList| <= |cols|
    ensures r.Success? ==> forall g :: 0 <= g < |cols| ==> DisplayedAs(cols[g], r.value.expressions[g])
    ensures r.Success? ==> forall j :: 0 <= j < |r.value.maxList| ==> r.value.maxList[j] > 0
    ensures r.Success? && (forall g :: 0 <= g < |cols| ==> CeilMax(cols[g]) >= 0) ==>
              && |r.value.maxList| == |cols|
              && forall g :: 0 <= g < |cols| ==>
                   r.value.maxList[g] == (if CeilMax(cols[g]) == 0 then DisplayTop else CeilMax(cols[g]))
  {
    var expressions: seq<seq<real>> := [];
    var maxList: seq<int> := [];
    ghost var tops: seq<int> := [];
    ghost var sawNegative := false;
    var g := 0;
    while g < |cols|
      invariant 0 <= g <= |cols|
      invariant ShownUpTo(cols, g, expressions)
      invariant TopsOf(cols, g, tops)
      invariant MaxListUpTo(tops, maxList, sawNegative)
      invariant maxList == Maxima(tops)
    {
      if |cols[g]| == 0 {
        return Failure(EmptyColumn);
      }
      var top := Ceil(ColumnMax(cols[g]));
      TopsStep(cols, g, tops);
      assert (tops + [top])[..g] == tops;
      if top == 0 {
        ShownStep(cols, g, expressions, cols[g]);
        MaxListStep(tops, maxList, sawNegative, top);
        maxList := maxList + [DisplayTop];
        expressions := expressions + [cols[g]];
      } else if top > 0 {
        maxList := maxList + [top];
        if g >= |maxList| {
          NegativeThenPositive(cols, g, tops, maxList[..|maxList| - 1], sawNegative);
          return Failure(IndexOutOfRange);
        }
        ShownStep(cols, g, expressions, Rescale(cols[g], maxList[g]));
        MaxListStep(tops, maxList[..g], sawNegative, top);
        assert maxList[..g] + [top] == maxList;
        expressions := expressions + [Rescale(cols[g], maxList[g])];
      } else {
        ShownStep(cols, g, expressions, cols[g]);
        MaxListStep(tops, maxList, sawNegative, top);
        expressions := expressions + [cols[g]];
        sawNegative := true;
      }
      tops := tops + [top];
      g := g + 1;
    }
    TopsAll(cols, tops);
    assert tops == Tops(cols);
    return Success(Normalized(expressions, maxList));
  }

  /** Genes `0..g` are nonempty and shown as `DisplayedAs` says. */
  ghost predicate ShownUpTo(cols: seq<seq<real>>, g: nat, expressions: seq<seq<real>>)
    requires g <= |cols|
  {
    && (forall j :: 0 <= j < g ==> |cols[j]| > 0)
    && |expressions| == g
    && (forall j :: 0 <= j < g ==> DisplayedAs(cols[j], expressions[j]))
  }

  /** `tops` holds the rounded-up maxima of genes `0..g`, which are nonempty. */
  ghost predicate TopsOf(cols: seq<seq<real>>, g: nat, tops: seq<int>) {
    && g <= |cols| && |tops| == g
    && forall j :: 0 <= j < g ==> |cols[j]| > 0 && tops[j] == CeilMax(cols[j])
  }

  /** `maxList` after the genes with rounded-up maxima `tops`: one display
      maximum per gene until a negative one, and none after it. */
  ghost predicate MaxListUpTo(tops: seq<int>, maxList: seq<int>, sawNegative: bool) {
    && (sawNegative <==> exists j :: 0 <= j < |tops| && tops[j] < 0)
    && (!sawNegative ==> |maxList| == |tops| && forall j :: 0 <= j < |tops| ==> maxList[j] == DisplayMax(tops[j]))
    && (sawNegative ==> |maxList| < |tops|)
    && (forall j :: 0 <= j < |maxList| ==> maxList[j] > 0)
    && !NegativeBeforePositiveTops(tops)
  }

  lemma ShownStep(cols: seq<seq<real>>, g: nat, expressions: seq<seq<real>>, shown: seq<real>)
    requires g < |cols| && |cols[g]| > 0
    requires ShownUpTo(cols, g, expressions)
    requires DisplayedAs(cols[g], shown)
    ensures ShownUpTo(cols, g + 1, expressions + [shown])
  {
    var expressions' := expressions + [shown];
    forall j | 0 <= j < g + 1
      ensures DisplayedAs(cols[j], expressions'[j])
    {
      if j < g {
        assert expressions'[j] == expressions[j];
      }
    }
  }

  lemma TopsStep(cols: seq<seq<real>>, g: nat, tops: seq<int>)
    requires g < |cols| && |cols[g]| > 0
    requires TopsOf(cols, g, tops)
    ensures TopsOf(cols, g + 1, tops + [CeilMax(cols[g])])
  {
    var tops' := tops + [CeilMax(cols[g])];
    assert forall j :: 0 <= j < g ==> tops'[j] == tops[j];
  }

  /** One more gene handled without a throw. */
  lemma MaxListStep(tops: seq<int>, maxList: seq<int>, sawNegative: bool, top: int)
    requires MaxListUpTo(tops, maxList, sawNegative)
    requires top > 0 ==> !sawNegative
    ensures MaxListUpTo(tops + [top], if top < 0 then maxList else maxList + [DisplayMax(top)], sawNegative || top < 0)
  {
    var tops' := tops + [top];
    var maxList' := if top < 0 then maxList else maxList + [DisplayMax(top)];
    assert forall j :: 0 <= j < |tops| ==> tops'[j] == tops[j];
    assert forall j :: 0 <= j < |maxList| ==> maxList'[j] == maxList[j];
    if top >= 0 {
      assert maxList'[|maxList|] == DisplayMax(top);
    }
    forall g1, g2 | 0 <= g1 < g2 < |tops'| && tops'[g1] < 0
      ensures tops'[g2] <= 0
    {
      if g2 == |tops| {
        assert tops[g1] < 0;
      }
    }
  }

  /** A positive maximum after a negative one: the source reads past the
      end of `maxList`, and the columns have a negative before a positive. */
  lemma NegativeThenPositive(cols: seq<seq<real>>, g: nat, tops: seq<int>, maxList: seq<int>, sawNegative: bool)
    requires g < |cols| && |cols[g]| > 0 && CeilMax(cols[g]) > 0
    requires TopsOf(cols, g, tops) && MaxListUpTo(tops, maxList, sawNegative)
    requires g >= |maxList| + 1
    ensures NegativeBeforePositive(cols)
  {
    var j :| 0 <= j < g && tops[j] < 0;
    assert CeilMax(cols[j]) < 0;
  }

  /** The rounded-up maxima of all genes decide the failure. */
  lemma TopsAll(cols: seq<seq<real>>, tops: seq<int>)
    requires TopsOf(cols, |cols|, tops)
    ensures NegativeBeforePositive(cols) <==> NegativeBeforePositiveTops(tops)
  {
    if NegativeBeforePositive(cols) {
      var g1, g2 :| 0 <= g1 < g2 < |cols| && |cols[g1]| > 0 && |cols[g2]| > 0 && CeilMax(cols[g1]) < 0 && CeilMax(cols[g2]) > 0;
      assert tops[g1] < 0 && tops[g2] > 0;
    }
    if NegativeBeforePositiveTops(tops) {
      var g1, g2 :| 0 <= g1 < g2 < |tops| && tops[g1] < 0 && tops[g2] > 0;
      assert CeilMax(cols[g1]) < 0 && CeilMax(cols[g2]) > 0;
    }
  }

  /** Two single-cell genes, the first with maximum -2 and the second with
      maximum 3: the source's loop adds nothing to `maxList` for the first and
      then reads `maxList[1]` of a one-entry list for the second. */
  lemma NegativeThenPositiveExample()
    ensures NegativeBeforePositive([[-2.0], [3.0]])
  {
    var cols := [[-2.0], [3.0]];
    assert CeilMax(cols[0]) == -2;
    assert CeilMax(cols[1]) == 3;
  }

  /** Genes with maxima 3, -2 and 0: the negative gene adds nothing to
      `maxList`, and the all-zero gene after it still adds 10. */
  lemma MaximaAfterNegative()
    ensures Maxima(Tops([[3.0], [-2.0], [0.0]])) == [3, 10]
  {
    var cols := [[3.0], [-2.0], [0.0]];
    assert CeilMax(cols[0]) == 3;
    assert CeilMax(cols[1]) == -2;
    assert CeilMax(cols[2]) == 0;
    var tops := Tops(cols);
    assert tops == [3, -2, 0];
    assert tops[..2] == [3, -2] && tops[..2][..1] == [3] && tops[..2][..1][..0] == [];
  }

  /** The rounded-up maximum of every column. */
  function Tops(cols: seq<seq<real>>): (tops: seq<int>)
    requires forall g :: 0 <= g < |cols| ==> |cols[g]| > 0
    ensures |tops| == |cols| && forall g :: 0 <= g < |cols| ==> tops[g] == CeilMax(cols[g])
  {
    seq(|cols|, g requires 0 <= g < |cols| => CeilMax(cols[g]))
  }

  /** The display maxima `maxList` collects for genes with rounded-up maxima
      `tops`: one per gene whose maximum is not negative, in gene order. */
  function Maxima(tops: seq<int>): (ms: seq<int>)
    ensures |ms| <= |tops|
    ensures forall j :: 0 <= j < |ms| ==> ms[j] > 0
  {
    if |tops| == 0 then []
    else
      var front := Maxima(tops[..|tops| - 1]);
      var last := tops[|tops| - 1];
      if last < 0 then front else front + [DisplayMax(last)]
  }

  /** When no maximum is negative, `maxList` has one display maximum per gene. */
  lemma {:induction false} MaximaAligned(tops: seq<int>)
    requires forall j :: 0 <= j < |tops| ==> tops[j] >= 0
    ensures |Maxima(tops)| == |tops|
    ensures forall j :: 0 <= j < |tops| ==> Maxima(tops)[j] == DisplayMax(tops[j])
  {
    if |tops| > 0 {
      var front := tops[..|tops| - 1];
      assert forall j :: 0 <= j < |front| ==> front[j] == tops[j];
      MaximaAligned(front);
    }
  }

  /** The normalising loop as evidently intended: each gene is scaled by its
      own display maximum, the entry just appended to `maxList`, so a gene with
      a negative maximum earlier in the selection no longer shifts the lookup. */
  method NormalizeByOwnMax(cols: seq<seq<real>>) returns (r: Result<Normalized>)
    ensures r.Success? <==> forall g :: 0 <= g < |cols| ==> |cols[g]| > 0
    ensures r.Failure? ==> r.error == EmptyColumn
    ensures r.Success? ==> r.value.maxList == Maxima(Tops(cols))
    ensures r.Success? ==> |r.value.expressions| == |cols| && |r.value.maxList| <= |cols|
    ensures r.Success? ==> forall g :: 0 <= g < |cols| ==> DisplayedAs(cols[g], r.value.expressions[g])
    ensures r.Success? ==> forall j :: 0 <= j < |r.value.maxList| ==> r.value.maxList[j] > 0
    ensures r.Success? && (forall g :: 0 <= g < |cols| ==> CeilMax(cols[g]) >= 0) ==>
              && |r.value.maxList| == |cols|
              && forall g :: 0 <= g < |cols| ==>
                   r.value.maxList[g] == (if CeilMax(cols[g]) == 0 then DisplayTop else CeilMax(cols[g]))
  {
    var expressions: seq<seq<real>> := [];
    var maxList: seq<int> := [];
    ghost var tops: seq<int> := [];
    var g := 0;
    while g < |cols|
      invariant 0 <= g <= |cols|
      invariant ShownUpTo(cols, g, expressions)
      invariant TopsOf(cols, g, tops)
      invariant maxList == Maxima(tops)
    {
      if |cols[g]| == 0 {
        return Failure(EmptyColumn);
      }
      var top := Ceil(ColumnMax(cols[g]));
      TopsStep(cols, g, tops);
      assert (tops + [top])[..g] == tops;
      if top == 0 {
        ShownStep(cols, g, expressions, cols[g]);
        maxList := maxList + [DisplayTop];
        expressions := expressions + [cols[g]];
      } else if top > 0 {
        maxList := maxList + [top];
        ShownStep(cols, g, expressions, Rescale(cols[g], maxList[|maxList| - 1]));
        expressions := expressions + [Rescale(cols[g], maxList[|maxList| - 1])];
      } else {
        ShownStep(cols, g, expressions, cols[g]);
        expressions := expressions + [cols[g]];
      }
      tops := tops + [top];
      g := g + 1;
    }
    assert tops == Tops(cols);
    if forall g :: 0 <= g < |cols| ==> CeilMax(cols[g]) >= 0 {
      MaximaAligned(tops);
    }
    return Success(Normalized(expressions, maxList));
  }

  /** `genes.map { cscReader(it) }`: the first unreadable gene throws. */
  function ReadColumns(m: Csc, numCells: nat, selection: seq<int>): (r: Result<seq<seq<real>>>)
    ensures r.Success? <==> forall g :: 0 <= g < |selection| ==> ColumnReadable(m, numCells, selection[g])
    ensures r.Failure? ==> r.error == IndexOutOfRange
    ensures r.Success? ==> |r.value| == |selection|
    ensures r.Success? ==> forall g :: 0 <= g < |selection| ==> r.value[g] == ReadColumn(m, numCells, selection[g]).value
  {
    if |selection| == 0 then Success([])
    else
      match ReadColumn(m, numCells, selection[0])
      case Failure(e) => Failure(e)
      case Success(col) =>
        match ReadColumns(m, numCells, selection[1..])
        case Failure(e) => Failure(e)
        case Success(rest) => Success([col] + rest)
  }

  /** The genes actually fetched: the caller's selection, or the random draws
      when the caller passed none. */
  function Selection(genes: seq<int>, draws: seq<int>): seq<int> {
    if |genes| == 0 then draws else genes
  }

  /** What `fetchGeneExpression` returns, with the selection it settled on
      (the source fills the caller's list in place). */
  datatype Fetched = Fetched(selection: seq<int>, names: seq<string>, expressions: seq<seq<real>>, maxList: seq<int>)

  /** Every gene of the selection has a readable column and a name. */
  predicate SelectionResolvable(m: Csc, numCells: nat, geneNames: seq<string>, selection: seq<int>) {
    forall g :: 0 <= g < |selection| ==> ColumnReadable(m, numCells, selection[g]) && 0 <= selection[g] < |geneNames|
  }

  /** `fetchGeneExpression(genes)`. The 21 random draws of the source are the
      parameter `draws`. */
  method FetchGeneExpression(m: Csc, numCells: nat, geneNames: seq<string>, genes: seq<int>, draws: seq<int>)
    returns (r: Result<Fetched>)
    requires |draws| == DefaultSelectionSize
    ensures r.Success? ==> r.value.selection == (if |genes| == 0 then draws else genes)
    ensures r.Success? <==> numCells > 0 && SelectionResolvable(m, numCells, geneNames, Selection(genes, draws))
    ensures r.Failure? ==> r.error == IndexOutOfRange || r.error == EmptyColumn
    ensures r.Success? ==> NamedAs(geneNames, r.value) && ShownAs(m, numCells, r.value)
    ensures r.Success? ==> FetchedMaxima(m, numCells, r.value.selection, r.value.maxList)
    ensures r.Success? ==> AlignedMaxima(m, numCells, r.value)
    ensures numCells > 0 && (forall k :: 0 <= k < |m.data| ==> m.data[k] >= 0.0)
            && SelectionResolvable(m, numCells, geneNames, Selection(genes, draws)) ==>
              r.Success? && InDisplayDomain(numCells, r.value)
  {
    var selection := Selection(genes, draws);
    var cols := ReadColumns(m, numCells, selection);
    ResolvableParts(m, numCells, geneNames, selection);
    if cols.Failure? {
      return Failure(cols.error);
    }
    if numCells == 0 {
      assert |cols.value[0]| == 0;
      return Failure(EmptyColumn);
    }
    var normalized := NormalizeByOwnMax(cols.value);
    assert normalized.Success?;
    if !NamesResolvable(geneNames, selection) {
      return Failure(IndexOutOfRange);
    }
    var names := NamesOf(geneNames, selection);
    var fetched := Fetched(selection, names, normalized.value.expressions, normalized.value.maxList);
    assert NamedAs(geneNames, fetched);
    FetchedContents(m, numCells, geneNames, cols.value, fetched);
    return Success(fetched);
  }

  /** Every gene of `sel` has a name. */
  predicate NamesResolvable(geneNames: seq<string>, sel: seq<int>) {
    forall g :: 0 <= g < |sel| ==> 0 <= sel[g] < |geneNames|
  }

  /** `genes.map { geneNames[it] }`. */
  function NamesOf(geneNames: seq<string>, sel: seq<int>): (names: seq<string>)
    requires NamesResolvable(geneNames, sel)
    ensures |names| == |sel| && forall g :: 0 <= g < |sel| ==> names[g] == geneNames[sel[g]]
  {
    seq(|sel|, g requires 0 <= g < |sel| => geneNames[sel[g]])
  }

  /** A selection resolves exactly when it densifies and every gene has a name. */
  lemma ResolvableParts(m: Csc, numCells: nat, geneNames: seq<string>, sel: seq<int>)
    ensures SelectionResolvable(m, numCells, geneNames, sel)
            <==> ReadColumns(m, numCells, sel).Success? && NamesResolvable(geneNames, sel)
  {
  }

  /** Every selected gene is reported under its name. */
  predicate NamedAs(geneNames: seq<string>, f: Fetched) {
    && |f.names| == |f.selection|
    && forall g :: 0 <= g < |f.selection| ==> 0 <= f.selection[g] < |geneNames| && f.names[g] == geneNames[f.selection[g]]
  }

  /** Every selected gene's column is its densified column, `numCells` long,
      displayed as the normalising loop intends. */
  ghost predicate ShownAs(m: Csc, numCells: nat, f: Fetched) {
    && |f.expressions| == |f.selection|
    && forall g :: 0 <= g < |f.selection| ==>
         && ColumnReadable(m, numCells, f.selection[g])
         && |f.expressions[g]| == numCells
         && |ReadColumn(m, numCells, f.selection[g]).value| > 0
         && DisplayedAs(ReadColumn(m, numCells, f.selection[g]).value, f.expressions[g])
  }

  /** When no selected column has a negative rounded-up maximum, `maxList`
      holds one display maximum per gene: 10 for a column whose rounded-up
      maximum is 0 and `ceil(max)` otherwise. */
  ghost predicate AlignedMaxima(m: Csc, numCells: nat, f: Fetched) {
    && numCells > 0
    && (forall g :: 0 <= g < |f.selection| ==> ColumnReadable(m, numCells, f.selection[g]))
    && ((forall g :: 0 <= g < |f.selection| ==> CeilMax(ReadColumn(m, numCells, f.selection[g]).value) >= 0) ==>
          && |f.maxList| == |f.selection|
          && forall g :: 0 <= g < |f.selection| ==>
               f.maxList[g] == DisplayMax(CeilMax(ReadColumn(m, numCells, f.selection[g]).value)))
  }

  /** One display maximum per gene, and every displayed value in [0, 10]. */
  predicate InDisplayDomain(numCells: nat, f: Fetched) {
    && |f.maxList| == |f.selection|
    && |f.expressions| == |f.selection|
    && forall g, row :: 0 <= g < |f.selection| && 0 <= row < numCells && row < |f.expressions[g]| ==>
         0.0 <= f.expressions[g][row] <= DisplayTop as real
  }

  /** What a successful fetch returns, stated about the densified selection. */
  lemma FetchedContents(m: Csc, numCells: nat, geneNames: seq<string>, cols: seq<seq<real>>, f: Fetched)
    requires numCells > 0
    requires forall g :: 0 <= g < |f.selection| ==> ColumnReadable(m, numCells, f.selection[g])
    requires cols == ReadColumns(m, numCells, f.selection).value
    requires NamedAs(geneNames, f)
    requires forall g :: 0 <= g < |cols| ==> |cols[g]| > 0
    requires |f.expressions| == |cols| && forall g :: 0 <= g < |cols| ==> DisplayedAs(cols[g], f.expressions[g])
    requires f.maxList == Maxima(Tops(cols))
    ensures ShownAs(m, numCells, f)
    ensures FetchedMaxima(m, numCells, f.selection, f.maxList)
    ensures AlignedMaxima(m, numCells, f)
    ensures (forall k :: 0 <= k < |m.data| ==> m.data[k] >= 0.0) ==> InDisplayDomain(numCells, f)
  {
    ShownFrom(m, numCells, cols, f);
    SelectedMaxima(m, numCells, f.selection, cols, f.maxList);
    if forall k :: 0 <= k < |m.data| ==> m.data[k] >= 0.0 {
      NonnegativeSelection(m, numCells, f.selection);
      ShownInDomain(m, numCells, f.selection, cols, f.expressions);
    }
  }

  /** The loop's columns, rescaled from the densified selection, are what
      `ShownAs` promises. */
  lemma ShownFrom(m: Csc, numCells: nat, cols: seq<seq<real>>, f: Fetched)
    requires forall g :: 0 <= g < |f.selection| ==> ColumnReadable(m, numCells, f.selection[g])
    requires cols == ReadColumns(m, numCells, f.selection).value
    requires forall g :: 0 <= g < |cols| ==> |cols[g]| > 0
    requires |f.expressions| == |cols| && forall g :: 0 <= g < |cols| ==> DisplayedAs(cols[g], f.expressions[g])
    ensures ShownAs(m, numCells, f)
  {
    forall g | 0 <= g < |f.selection|
      ensures |f.expressions[g]| == numCells
      ensures |ReadColumn(m, numCells, f.selection[g]).value| > 0
      ensures DisplayedAs(ReadColumn(m, numCells, f.selection[g]).value, f.expressions[g])
    {
      assert cols[g] == ReadColumn(m, numCells, f.selection[g]).value;
    }
  }

  /** `maxList` holds, in selection order, the display maximum of every
      selected gene whose densified column has a nonnegative rounded-up
      maximum. */
  ghost predicate FetchedMaxima(m: Csc, numCells: nat, sel: seq<int>, maxList: seq<int>) {
    && numCells > 0
    && (forall g :: 0 <= g < |sel| ==> ColumnReadable(m, numCells, sel[g]))
    && var cols := ReadColumns(m, numCells, sel).value;
       (forall g :: 0 <= g < |cols| ==> |cols[g]| > 0) && maxList == Maxima(Tops(cols))
  }

  /** The display maxima of the densified selection, as `FetchedMaxima` and
      gene by gene. */
  lemma SelectedMaxima(m: Csc, numCells: nat, sel: seq<int>, cols: seq<seq<real>>, maxList: seq<int>)
    requires numCells > 0
    requires forall g :: 0 <= g < |sel| ==> ColumnReadable(m, numCells, sel[g])
    requires cols == ReadColumns(m, numCells, sel).value
    requires forall g :: 0 <= g < |cols| ==> |cols[g]| > 0
    requires maxList == Maxima(Tops(cols))
    ensures FetchedMaxima(m, numCells, sel, maxList)
    ensures (forall g :: 0 <= g < |sel| ==> CeilMax(ReadColumn(m, numCells, sel[g]).value) >= 0) ==>
              && |maxList| == |sel|
              && forall g :: 0 <= g < |sel| ==> maxList[g] == DisplayMax(CeilMax(ReadColumn(m, numCells, sel[g]).value))
  {
    if forall g :: 0 <= g < |sel| ==> CeilMax(ReadColumn(m, numCells, sel[g]).value) >= 0 {
      var tops := Tops(cols);
      forall g | 0 <= g < |sel| ensures tops[g] == CeilMax(ReadColumn(m, numCells, sel[g]).value) {
        assert cols[g] == ReadColumn(m, numCells, sel[g]).value;
      }
      MaximaAligned(tops);
    }
  }

  /** With nonnegative stored values every displayed column of the
      selection lies in [0, 10]. */
  lemma ShownInDomain(m: Csc, numCells: nat, sel: seq<int>, cols: seq<seq<real>>, shown: seq<seq<real>>)
    requires forall k :: 0 <= k < |m.data| ==> m.data[k] >= 0.0
    requires forall g :: 0 <= g < |sel| ==> ColumnReadable(m, numCells, sel[g])
    requires |cols| == |sel| == |shown|
    requires forall g :: 0 <= g < |sel| ==> cols[g] == ReadColumn(m, numCells, sel[g]).value
    requires forall g :: 0 <= g < |sel| ==> |cols[g]| > 0 && DisplayedAs(cols[g], shown[g])
    ensures forall g, row :: 0 <= g < |sel| && 0 <= row < |shown[g]| ==> 0.0 <= shown[g][row] <= DisplayTop as real
  {
    forall g, row | 0 <= g < |sel| && 0 <= row < |shown[g]|
      ensures 0.0 <= shown[g][row] <= DisplayTop as real
    {
      DenseNonnegative(m, numCells, sel[g]);
      DisplayedInDomain(cols[g], shown[g]);
    }
  }

  /** A column densified from nonnegative stored values is nonnegative. */
  lemma DenseNonnegative(m: Csc, numCells: nat, col: int)
    requires ColumnReadable(m, numCells, col)
    requires forall k :: 0 <= k < |m.data| ==> m.data[k] >= 0.0
    ensures forall row :: 0 <= row < numCells ==> ReadColumn(m, numCells, col).value[row] >= 0.0
  {
    ReadColumnEntries(m, numCells, col);
  }

  /** A nonnegative column lands in the display domain [0, 10]: rescaled
      when its rounded-up maximum is positive, and all zero otherwise. */
  lemma DisplayedInDomain(col: seq<real>, shown: seq<real>)
    requires |col| > 0 && DisplayedAs(col, shown)
    requires forall i :: 0 <= i < |col| ==> col[i] >= 0.0
    ensures CeilMax(col) >= 0
    ensures |shown| == |col|
    ensures forall i :: 0 <= i < |shown| ==> 0.0 <= shown[i] <= DisplayTop as real
    ensures CeilMax(col) == 0 ==> forall i :: 0 <= i < |shown| ==> shown[i] == 0.0
  {
    if CeilMax(col) > 0 {
      RescaleBounds(col);
    }
  }

  /** Densifying a resolvable selection of a matrix with nonnegative stored
      values gives columns whose rounded-up maxima are all nonnegative, so
      the normalising loop never misreads `maxList`. */
  lemma NonnegativeSelection(m: Csc, numCells: nat, sel: seq<int>)
    requires numCells > 0
    requires forall k :: 0 <= k < |m.data| ==> m.data[k] >= 0.0
    requires forall g :: 0 <= g < |sel| ==> ColumnReadable(m, numCells, sel[g])
    ensures var cols := ReadColumns(m, numCells, sel);
            && cols.Success?
            && forall g :: 0 <= g < |cols.value| ==> |cols.value[g]| == numCells && CeilMax(cols.value[g]) >= 0
  {
    var cols := ReadColumns(m, numCells, sel);
    forall g | 0 <= g < |cols.value|
      ensures |cols.value[g]| == numCells && CeilMax(cols.value[g]) >= 0
    {
      DenseNonnegative(m, numCells, sel[g]);
      assert cols.value[g][0] >= 0.0;
    }
  }
}

=== FILE: instancing.dfy ===
/** The instancing side of `XPlot`: cells are split into batches of 10000,
    each batch drawn as the instances of one master sphere; a recolouring
    pass picks every instance's colour from the current annotation or gene,
    and a reset clears the laser selection.
 */
module Instancing {
  import opened Wrappers
  import opened Embedding
  import opened AnnotationEncoding
  import GeneExpression

  /** `masterSplit`: the most instances one master draws. */
  const MasterSplit := 10000

  /** `positionScaling`: the factor every centred position is scaled by. */
  const PositionScaling := 0.3

  /** `masterCount`: how many masters `cellCount` cells need. */
  function MasterCount(cellCount: nat): (mc: nat)
    ensures cellCount <= mc * MasterSplit
    ensures cellCount == 0 ==> mc == 0
    ensures cellCount > 0 ==> (mc - 1) * MasterSplit < cellCount
  {
    (cellCount + MasterSplit - 1) / MasterSplit
  }

  /** Where one cell is drawn: the key of its master and its offset among
      that master's instances. */
  datatype Slot = Slot(master: int, offset: int)

  /** The place the batching rule gives cell `i`. */
  function SlotOf(i: nat): Slot {
    Slot(1 + i / MasterSplit, i % MasterSplit)
  }

  /** `i` splits into `q` full batches and `r` more. */
  lemma DivModUnique(i: int, q: int, r: int)
    requires i == q * MasterSplit + r && 0 <= r < MasterSplit
    ensures i / MasterSplit == q && i % MasterSplit == r
  {
  }

  /** The `resettingCounter` / `parentIterator` loop shared by `loadDataset`
      and `updateInstancingColor`: the slot every cell in arrival order is
      put in or looked up at. */
  method Partition(n: nat) returns (slots: seq<Slot>)
    ensures |slots| == n
    ensures forall i :: 0 <= i < n ==> slots[i] == SlotOf(i)
    ensures forall i :: 0 <= i < n ==> 1 <= slots[i].master <= MasterCount(n)
  {
    slots := [];
    var resettingCounter := 0;
    var parentIterator := 1;
    var i := 0;
    while i < n
      invariant 0 <= i <= n && |slots| == i
      invariant 0 <= resettingCounter <= MasterSplit && parentIterator >= 1
      invariant i == (parentIterator - 1) * MasterSplit + resettingCounter
      invariant forall j :: 0 <= j < i ==> slots[j] == SlotOf(j)
      invariant parentIterator <= MasterCount(n) || i == 0
    {
      if resettingCounter >= MasterSplit {
        parentIterator := parentIterator + 1;
        resettingCounter := 0;
      }
      DivModUnique(i, parentIterator - 1, resettingCounter);
      slots := slots + [Slot(parentIterator, resettingCounter)];
      resettingCounter := resettingCounter + 1;
      i := i + 1;
    }
    forall j | 0 <= j < n
      ensures 1 <= slots[j].master <= MasterCount(n)
    {
      SlotInRange(n, j);
    }
  }

  /** How many instances master `p` holds: full batches, then the rest. */
  function BatchSize(n: nat, p: int): int {
    if p < MasterCount(n) then MasterSplit else n - MasterSplit * (MasterCount(n) - 1)
  }

  /** Every cell's slot names an existing master and an offset inside its batch. */
  lemma SlotInRange(n: nat, i: nat)
    requires i < n
    ensures 1 <= SlotOf(i).master <= MasterCount(n)
    ensures 0 <= SlotOf(i).offset < BatchSize(n, SlotOf(i).master)
  {
    var mc := MasterCount(n);
    var q := i / MasterSplit;
    assert i == q * MasterSplit + i % MasterSplit;
  }

  /** Every offset inside a batch is the slot of exactly one cell. */
  lemma SlotCovers(n: nat, p: int, o: int)
    requires 1 <= p <= MasterCount(n) && 0 <= o < BatchSize(n, p)
    ensures (p - 1) * MasterSplit + o < n
    ensures SlotOf((p - 1) * MasterSplit + o) == Slot(p, o)
  {
    DivModUnique((p - 1) * MasterSplit + o, p - 1, o);
  }

  /** Different cells never share a slot. */
  lemma SlotInjective(i: nat, j: nat)
    requires i != j
    ensures SlotOf(i) != SlotOf(j)
  {
    assert i == (i / MasterSplit) * MasterSplit + i % MasterSplit;
    assert j == (j / MasterSplit) * MasterSplit + j % MasterSplit;
  }

  /** The colour maps: `jet` for annotations, `hot` for gene expression. */
  datatype Palette = Jet | Hot

  /** An instance's colour: a colour map sampled at a scalar (the sampling
      itself is left symbolic), or the instance's own material colour, which
      marks a cell selected by the laser. */
  datatype Colour = Sampled(palette: Palette, at: real) | MaterialColour

  /** One drawn cell: its position, its annotation codes by name, its
      `selected` metadata (absent, true or false), whether it is shown,
      whether it awaits upload to the GPU, and its colour, once one is set. */
  datatype Instance = Instance(
    position: Coord,
    annotations: map<string, int>,
    selected: Option<bool>,
    visible: bool,
    dirty: bool,
    colour: Option<Colour>)

  /** A master sphere: its instances in order, and its
      `MaxInstanceUpdateCount`. */
  datatype Master = Master(instances: seq<Instance>, updateCount: int)

  /** `masterMap`. */
  type Masters = map<int, Master>

  /** Every annotation has a code for cell `i`. */
  predicate CodesCover(cols: seq<AnnotationColumn>, i: nat) {
    forall k :: 0 <= k < |cols| ==> i < |cols[k].raw|
  }

  /** The metadata of cell `i`: each annotation's code for it, put under the
      annotation's name in annotation order. */
  function Metadata(cols: seq<AnnotationColumn>, i: nat): (md: map<string, int>)
    requires CodesCover(cols, i)
    ensures forall k :: 0 <= k < |cols| ==> cols[k].name in md
    ensures forall name :: name in md ==> exists k :: 0 <= k < |cols| && cols[k].name == name
  {
    if |cols| == 0 then map[]
    else
      var front := cols[..|cols| - 1];
      assert forall k :: 0 <= k < |front| ==> front[k] == cols[k];
      Metadata(front, i)[cols[|cols| - 1].name := cols[|cols| - 1].raw[i]]
  }

  /** A name holds the code of the last annotation that has it. */
  lemma {:induction false} MetadataLastWrite(cols: seq<AnnotationColumn>, i: nat, k: int)
    requires CodesCover(cols, i) && 0 <= k < |cols|
    requires forall k' :: k < k' < |cols| ==> cols[k'].name != cols[k].name
    ensures Metadata(cols, i)[cols[k].name] == cols[k].raw[i]
  {
    if k < |cols| - 1 {
      var front := cols[..|cols| - 1];
      assert front[k] == cols[k];
      assert forall k' :: k < k' < |front| ==> front[k'] == cols[k'];
      MetadataLastWrite(front, i, k);
    }
  }

  /** With distinct names, every annotation's code is recorded under its name. */
  lemma MetadataRecordsCodes(cols: seq<AnnotationColumn>, i: nat)
    requires CodesCover(cols, i) && DistinctNames(cols)
    ensures forall k :: 0 <= k < |cols| ==> Metadata(cols, i)[cols[k].name] == cols[k].raw[i]
  {
    forall k | 0 <= k < |cols|
      ensures Metadata(cols, i)[cols[k].name] == cols[k].raw[i]
    {
      MetadataLastWrite(cols, i, k);
    }
  }

  /** A cell's position: its embedding coordinate, centred and scaled. */
  function Placement(c: Coord, center: Coord): (q: Coord)
    ensures q.x / PositionScaling + center.x == c.x
    ensures q.y / PositionScaling + center.y == c.y
    ensures q.z / PositionScaling + center.z == c.z
  {
    Coord((c.x - center.x) * PositionScaling, (c.y - center.y) * PositionScaling, (c.z - center.z) * PositionScaling)
  }

  /** The instance `loadDataset` makes for cell `i`: visible, not selected,
      not yet coloured. */
  function CellInstance(coords: seq<Coord>, cols: seq<AnnotationColumn>, center: Coord, i: nat): Instance
    requires i < |coords| && CodesCover(cols, i)
  {
    Instance(Placement(coords[i], center), Metadata(cols, i), None, true, false, None)
  }

  /** The masters are keyed `1..masterCount` and hold the batch sizes of `n`
      cells. */
  ghost predicate LaidOut(masters: Masters, n: nat) {
    && (forall p :: p in masters <==> 1 <= p <= MasterCount(n))
    && (forall p :: p in masters ==> |masters[p].instances| == BatchSize(n, p))
  }

  /** The instance of cell `i`. */
  ghost function InstanceOf(masters: Masters, n: nat, i: nat): Instance
    requires LaidOut(masters, n) && i < n
  {
    SlotInRange(n, i);
    masters[SlotOf(i).master].instances[SlotOf(i).offset]
  }

  /** The masters `loadDataset` creates before placing any cell: keys
      `1..masterCount`, no instances, `MaxInstanceUpdateCount` 1. */
  method NewMasters(masterCount: nat) returns (masters: Masters)
    ensures forall q :: q in masters <==> 1 <= q <= masterCount
    ensures forall q :: q in masters ==> masters[q] == Master([], 1)
  {
    masters := map[];
    var p := 1;
    while p <= masterCount
      invariant 1 <= p <= masterCount + 1
      invariant forall q :: q in masters <==> 1 <= q < p
      invariant forall q :: q in masters ==> masters[q] == Master([], 1)
    {
      masters := masters[p := Master([], 1)];
      p := p + 1;
    }
  }

  /** `loadDataset`: create the masters, each with `MaxInstanceUpdateCount`
      1, then put each cell's instance at the end of its master. It fails
      on the first cell some annotation has no code for. */
  method LoadDataset(coords: seq<Coord>, cols: seq<AnnotationColumn>, center: Coord) returns (r: Result<Masters>)
    ensures r.Success? <==> forall k :: 0 <= k < |cols| ==> |coords| <= |cols[k].raw|
    ensures r.Failure? ==> r.error == IndexOutOfRange
    ensures r.Success? ==> LaidOut(r.value, |coords|)
    ensures r.Success? ==> forall p :: p in r.value ==> r.value[p].updateCount == 1
    ensures r.Success? ==> forall i :: 0 <= i < |coords| ==>
              CodesCover(cols, i) && InstanceOf(r.value, |coords|, i) == CellInstance(coords, cols, center, i)
  {
    var n: nat := |coords|;
    var masters := NewMasters(MasterCount(n));
    PlacedNone(masters, coords, cols, center);
    var slots := Partition(n);
    var i := 0;
    while i < n
      invariant 0 <= i <= n
      invariant forall k :: 0 <= k < |cols| ==> i <= |cols[k].raw|
      invariant PlacedUpTo(masters, i, coords, cols, center)
    {
      if !CodesCover(cols, i) {
        return Failure(IndexOutOfRange);
      }
      PlaceStep(masters, i, coords, cols, center);
      masters := Place(masters, slots[i].master, CellInstance(coords, cols, center, i));
      i := i + 1;
    }
    PlacedAll(masters, coords, cols, center);
    return Success(masters);
  }

  /** `masterMap[parentIterator]?.instances?.add(s)`: append `s` to master
      `p`, if there is one. */
  function Place(masters: Masters, p: int, s: Instance): (r: Masters)
    ensures r.Keys == masters.Keys
  {
    if p in masters then masters[p := masters[p].(instances := masters[p].instances + [s])] else masters
  }

  /** The first `i` cells of `coords` are placed: the masters of `1..masterCount`
      hold their share of them, each at its slot, and no counter has moved. */
  ghost predicate PlacedUpTo(masters: Masters, i: nat, coords: seq<Coord>, cols: seq<AnnotationColumn>, center: Coord) {
    && (forall q :: q in masters <==> 1 <= q <= MasterCount(|coords|))
    && (forall q :: q in masters ==>
          && masters[q].updateCount == 1
          && |masters[q].instances| == CountBefore(i, q)
          && HoldsCells(masters[q].instances, q, coords, cols, center))
  }

  /** The new masters hold no cell yet. */
  lemma PlacedNone(masters: Masters, coords: seq<Coord>, cols: seq<AnnotationColumn>, center: Coord)
    requires forall q :: q in masters <==> 1 <= q <= MasterCount(|coords|)
    requires forall q :: q in masters ==> masters[q] == Master([], 1)
    ensures PlacedUpTo(masters, 0, coords, cols, center)
  {
    forall q | q in masters
      ensures CountBefore(0, q) == 0
    {
      assert (q - 1) * MasterSplit >= 0;
    }
  }

  /** Placing cell `i` in the master its slot names extends the placement
      by one cell. */
  lemma PlaceStep(masters: Masters, i: nat, coords: seq<Coord>, cols: seq<AnnotationColumn>, center: Coord)
    requires PlacedUpTo(masters, i, coords, cols, center)
    requires i < |coords| && CodesCover(cols, i)
    ensures PlacedUpTo(Place(masters, SlotOf(i).master, CellInstance(coords, cols, center, i)), i + 1, coords, cols, center)
  {
    var slot := SlotOf(i);
    SlotInRange(|coords|, i);
    var masters' := Place(masters, slot.master, CellInstance(coords, cols, center, i));
    forall q | q in masters'
      ensures |masters'[q].instances| == CountBefore(i + 1, q)
      ensures HoldsCells(masters'[q].instances, q, coords, cols, center)
    {
      CountBeforeStep(i, q);
      if q == slot.master {
        HoldsCellsAppend(masters[q].instances, q, coords, cols, center, i);
      }
    }
  }

  /** Once every cell is placed the masters are laid out for all of them,
      each cell at its slot. */
  lemma PlacedAll(masters: Masters, coords: seq<Coord>, cols: seq<AnnotationColumn>, center: Coord)
    requires PlacedUpTo(masters, |coords|, coords, cols, center)
    ensures LaidOut(masters, |coords|)
    ensures forall p :: p in masters ==> masters[p].updateCount == 1
    ensures forall i :: 0 <= i < |coords| ==>
              CodesCover(cols, i) && InstanceOf(masters, |coords|, i) == CellInstance(coords, cols, center, i)
  {
    forall q | q in masters
      ensures |masters[q].instances| == BatchSize(|coords|, q)
    {
      CountBeforeAll(|coords|, q);
    }
    PlacedCells(masters, coords, cols, center);
  }

  /** The cell at offset `o` of master `q`. */
  function CellAt(q: int, o: int): int {
    (q - 1) * MasterSplit + o
  }

  /** Offset `o` of `insts`, the instances of master `q`, holds the instance
      of the cell at that place. */
  ghost predicate HoldsCell(insts: seq<Instance>, q: int, o: int, coords: seq<Coord>, cols: seq<AnnotationColumn>, center: Coord)
    requires 0 <= o < |insts|
  {
    0 <= CellAt(q, o) < |coords| && CodesCover(cols, CellAt(q, o)) && insts[o] == CellInstance(coords, cols, center, CellAt(q, o))
  }

  /** Every offset of master `q` holds the instance of its cell. */
  ghost predicate HoldsCells(insts: seq<Instance>, q: int, coords: seq<Coord>, cols: seq<AnnotationColumn>, center: Coord) {
    forall o :: 0 <= o < |insts| ==> HoldsCell(insts, q, o, coords, cols, center)
  }

  /** Appending cell `i` at its own slot keeps `HoldsCells`. */
  lemma HoldsCellsAppend(insts: seq<Instance>, q: int, coords: seq<Coord>, cols: seq<AnnotationColumn>, center: Coord, i: nat)
    requires HoldsCells(insts, q, coords, cols, center)
    requires i < |coords| && CodesCover(cols, i)
    requires q == SlotOf(i).master && |insts| == SlotOf(i).offset
    ensures HoldsCells(insts + [CellInstance(coords, cols, center, i)], q, coords, cols, center)
  {
    var insts' := insts + [CellInstance(coords, cols, center, i)];
    forall o | 0 <= o < |insts'|
      ensures HoldsCell(insts', q, o, coords, cols, center)
    {
      if o == |insts| {
        assert i == CellAt(q, o);
      } else {
        assert HoldsCell(insts, q, o, coords, cols, center);
        assert insts'[o] == insts[o];
      }
    }
  }

  /** Masters laid out for all cells and holding their cells hold every cell
      at that cell's slot. */
  lemma PlacedCells(masters: Masters, coords: seq<Coord>, cols: seq<AnnotationColumn>, center: Coord)
    requires LaidOut(masters, |coords|)
    requires forall q :: q in masters ==> HoldsCells(masters[q].instances, q, coords, cols, center)
    ensures forall i :: 0 <= i < |coords| ==>
              CodesCover(cols, i) && InstanceOf(masters, |coords|, i) == CellInstance(coords, cols, center, i)
  {
    forall i | 0 <= i < |coords|
      ensures CodesCover(cols, i) && InstanceOf(masters, |coords|, i) == CellInstance(coords, cols, center, i)
    {
      SlotInRange(|coords|, i);
      var slot := SlotOf(i);
      assert i == CellAt(slot.master, slot.offset);
      var insts := masters[slot.master].instances;
      assert HoldsCells(insts, slot.master, coords, cols, center);
      assert HoldsCell(insts, slot.master, slot.offset, coords, cols, center);
    }
  }

  /** How many of the first `i` cells belong to master `p`. */
  function CountBefore(i: nat, p: int): int {
    var full := (p - 1) * MasterSplit;
    if i <= full then 0 else if i - full >= MasterSplit then MasterSplit else i - full
  }

  /** Cell `i` sits in its master right after the cells before it. */
  lemma CountBeforeStep(i: nat, p: int)
    ensures p == SlotOf(i).master ==> CountBefore(i, p) == SlotOf(i).offset && CountBefore(i + 1, p) == CountBefore(i, p) + 1
    ensures p != SlotOf(i).master ==> CountBefore(i + 1, p) == CountBefore(i, p)
  {
    var q := i / MasterSplit;
    assert i == q * MasterSplit + i % MasterSplit;
  }

  /** Once all cells are placed, each master holds its batch size. */
  lemma CountBeforeAll(n: nat, p: int)
    requires 1 <= p <= MasterCount(n)
    ensures CountBefore(n, p) == BatchSize(n, p)
  {
  }

  /** The plot state a recolouring pass reads: the mode, the two pickers,
      the normalised annotation columns and the rescaled expression columns. */
  datatype Plot = Plot(
    annotationMode: bool,
    annotationPicker: int,
    genePicker: int,
    annotationArray: seq<seq<real>>,
    geneExpr: seq<seq<real>>)

  /** Every expression and annotation column has at least `n` entries. */
  predicate ScalarsCover(plot: Plot, n: nat) {
    && (forall g :: 0 <= g < |plot.geneExpr| ==> n <= |plot.geneExpr[g]|)
    && (forall a :: 0 <= a < |plot.annotationArray| ==> n <= |plot.annotationArray[a]|)
  }

  /** The picker of the current mode names an existing column. */
  predicate PickerValid(plot: Plot) {
    if plot.annotationMode then 0 <= plot.annotationPicker < |plot.annotationArray|
    else 0 <= plot.genePicker < |plot.geneExpr|
  }

  /** The scalar cell `i`'s colour map is sampled at. */
  function ColourScalar(plot: Plot, i: nat): (x: real)
    requires ScalarsCover(plot, i + 1) && PickerValid(plot)
  {
    if plot.annotationMode then plot.annotationArray[plot.annotationPicker][i]
    else plot.geneExpr[plot.genePicker][i] / 10.0
  }

  /** Codes that are never negative, normalised as `XPlot` does, and
      expression values in the display domain 0..10 give a scalar in 0..1,
      the domain of the colour maps. */
  lemma ColourScalarInUnitRange(plot: Plot, i: nat, cols: seq<AnnotationColumn>)
    requires ScalarsCover(plot, i + 1) && PickerValid(plot)
    requires plot.annotationArray == EncodeColumns(cols)
    requires forall k, j :: 0 <= k < |cols| && 0 <= j < |cols[k].raw| ==> cols[k].raw[j] >= 0
    requires forall g, j :: 0 <= g < |plot.geneExpr| && 0 <= j < |plot.geneExpr[g]| ==> 0.0 <= plot.geneExpr[g][j] <= 10.0
    ensures 0.0 <= ColourScalar(plot, i) <= 1.0
  {
    if plot.annotationMode {
      var raw := cols[plot.annotationPicker].raw;
      if |raw| > 0 && MaxCode(raw) > 0 {
        NormalizedRange(raw);
      }
    }
  }

  /** In annotation mode the scalar is the cell's code over the largest code
      of the picked annotation: scaled back up it is the code itself. */
  lemma AnnotationScalarDecodes(plot: Plot, i: nat, cols: seq<AnnotationColumn>)
    requires ScalarsCover(plot, i + 1) && PickerValid(plot) && plot.annotationMode
    requires plot.annotationArray == EncodeColumns(cols)
    requires |cols[plot.annotationPicker].raw| > 0 && MaxCode(cols[plot.annotationPicker].raw) > 0
    ensures i < |cols[plot.annotationPicker].raw|
    ensures ScaledBackTo(ColourScalar(plot, i), MaxCode(cols[plot.annotationPicker].raw), cols[plot.annotationPicker].raw[i])
  {
    var raw := cols[plot.annotationPicker].raw;
    var norm := Normalize(raw).norm;
    assert plot.annotationArray[plot.annotationPicker] == norm;
    var x := ColourScalar(plot, i);
    var m := MaxCode(raw);
    ScalesBackAt(norm, m, raw, i, x);
  }

  /** In gene mode the scalar is the cell's displayed expression over 10;
      when the column was rescaled by its display maximum `top`, the scalar
      scaled back up by `top` is the densified expression. */
  lemma GeneScalarDecodes(plot: Plot, i: nat, col: seq<real>, top: int)
    requires ScalarsCover(plot, i + 1) && PickerValid(plot) && !plot.annotationMode
    requires top > 0 && plot.geneExpr[plot.genePicker] == GeneExpression.Rescale(col, top)
    ensures i < |col| && ColourScalar(plot, i) * (top as real) == col[i]
  {
    var x := ColourScalar(plot, i);
    var e := plot.geneExpr[plot.genePicker][i];
    assert x * 10.0 == e;
    assert e * (top as real) == col[i] * 10.0;
    assert (x * (top as real)) * 10.0 == col[i] * 10.0;
  }

  /** The colour of cell `i`: a cell the laser selected keeps its material
      colour; any other samples `jet` in annotation mode and `hot` in gene
      mode. */
  function ColourFor(plot: Plot, selected: Option<bool>, i: nat): (c: Colour)
    requires ScalarsCover(plot, i + 1) && PickerValid(plot)
    ensures c == MaterialColour <==> selected == Some(true)
    ensures c.Sampled? ==> c.at == ColourScalar(plot, i) && (c.palette == Jet <==> plot.annotationMode)
  {
    if selected == Some(true) then MaterialColour
    else Sampled(if plot.annotationMode then Jet else Hot, ColourScalar(plot, i))
  }

  /** An instance after the pass visits it as cell `i`: marked dirty and
      given its colour, all else kept. */
  function Recoloured(s: Instance, plot: Plot, i: nat): (t: Instance)
    requires ScalarsCover(plot, i + 1) && PickerValid(plot)
    ensures t.dirty && t.colour == Some(ColourFor(plot, s.selected, i))
    ensures t.(dirty := s.dirty, colour := s.colour) == s
  {
    s.(dirty := true, colour := Some(ColourFor(plot, s.selected, i)))
  }

  /** The masters with the instance at `slot` replaced by `x`, when there is one. */
  function SetInstance(masters: Masters, slot: Slot, x: Instance): Masters {
    if slot.master in masters && 0 <= slot.offset < |masters[slot.master].instances| then
      var m := masters[slot.master];
      masters[slot.master := m.(instances := m.instances[slot.offset := x])]
    else masters
  }

  /** Replacing the instance of cell `i` changes that cell and no other,
      and keeps the layout and the counters. */
  lemma SetInstanceEffect(masters: Masters, n: nat, i: nat, x: Instance)
    requires LaidOut(masters, n) && i < n
    ensures var masters' := SetInstance(masters, SlotOf(i), x);
            && LaidOut(masters', n)
            && (forall q :: q in masters ==> masters'[q].updateCount == masters[q].updateCount)
            && InstanceOf(masters', n, i) == x
            && (forall j :: 0 <= j < n && j != i ==> InstanceOf(masters', n, j) == InstanceOf(masters, n, j))
  {
    SlotInRange(n, i);
    var masters' := SetInstance(masters, SlotOf(i), x);
    forall j | 0 <= j < n && j != i
      ensures InstanceOf(masters', n, j) == InstanceOf(masters, n, j)
    {
      SlotInRange(n, j);
      SlotInjective(i, j);
    }
  }

  /** `updateInstancingColor`: visit every cell at its slot, mark its
      instance dirty and set its colour, then bump every master's
      `MaxInstanceUpdateCount`. Reading an expression or annotation column
      that is too short, or a picker past the end, throws. */
  method UpdateInstancingColor(masters: Masters, n: nat, plot: Plot) returns (r: Result<Masters>)
    requires LaidOut(masters, n)
    ensures r.Success? <==> n == 0 || (ScalarsCover(plot, n) && PickerValid(plot))
    ensures r.Failure? ==> r.error == IndexOutOfRange
    ensures r.Success? ==> LaidOut(r.value, n)
    ensures r.Success? ==> forall q :: q in masters ==> r.value[q].updateCount == masters[q].updateCount + 1
    ensures r.Success? ==> forall i :: 0 <= i < n ==>
              InstanceOf(r.value, n, i) == Recoloured(InstanceOf(masters, n, i), plot, i)
  {
    var slots := Partition(n);
    var current := masters;
    var i := 0;
    while i < n
      invariant 0 <= i <= n
      invariant RecolouredUpTo(current, masters, n, plot, i)
    {
      if !ScalarsCover(plot, i + 1) || !PickerValid(plot) {
        return Failure(IndexOutOfRange);
      }
      SlotInRange(n, i);
      var slot := slots[i];
      var s := current[slot.master].instances[slot.offset];
      assert s == InstanceOf(current, n, i);
      RecolourStep(current, masters, n, plot, i);
      current := SetInstance(current, slot, Recoloured(s, plot, i));
      i := i + 1;
    }
    var bumped := BumpCounters(current, MasterCount(n));
    KeptInstances(current, bumped, n);
    return Success(bumped);
  }

  /** The first `i` cells are recoloured and the rest untouched; layout and
      counters are as they were. */
  ghost predicate RecolouredUpTo(current: Masters, masters: Masters, n: nat, plot: Plot, i: nat)
    requires LaidOut(masters, n) && i <= n
  {
    && LaidOut(current, n)
    && ScalarsCover(plot, i) && (i > 0 ==> PickerValid(plot))
    && (forall q :: q in masters ==> current[q].updateCount == masters[q].updateCount)
    && (forall j :: 0 <= j < i ==> InstanceOf(current, n, j) == Recoloured(InstanceOf(masters, n, j), plot, j))
    && (forall j :: i <= j < n ==> InstanceOf(current, n, j) == InstanceOf(masters, n, j))
  }

  /** Recolouring the instance at cell `i`'s slot extends the pass by one cell. */
  lemma RecolourStep(current: Masters, masters: Masters, n: nat, plot: Plot, i: nat)
    requires LaidOut(masters, n) && i < n
    requires RecolouredUpTo(current, masters, n, plot, i)
    requires ScalarsCover(plot, i + 1) && PickerValid(plot)
    ensures RecolouredUpTo(SetInstance(current, SlotOf(i), Recoloured(InstanceOf(current, n, i), plot, i)), masters, n, plot, i + 1)
  {
    var s := InstanceOf(current, n, i);
    assert s == InstanceOf(masters, n, i);
    SetInstanceEffect(current, n, i, Recoloured(s, plot, i));
  }

  /** `for (master in 1..masterCount)`: bump each master's
      `MaxInstanceUpdateCount` by one. */
  method BumpCounters(masters: Masters, masterCount: nat) returns (bumped: Masters)
    requires forall q :: q in masters <==> 1 <= q <= masterCount
    ensures bumped.Keys == masters.Keys
    ensures forall q :: q in masters ==> bumped[q] == masters[q].(updateCount := masters[q].updateCount + 1)
  {
    bumped := masters;
    var p := 1;
    while p <= masterCount
      invariant 1 <= p <= masterCount + 1
      invariant bumped.Keys == masters.Keys
      invariant forall q :: q in masters ==>
                  bumped[q] == masters[q].(updateCount := masters[q].updateCount + (if q < p then 1 else 0))
    {
      bumped := bumped[p := bumped[p].(updateCount := bumped[p].updateCount + 1)];
      p := p + 1;
    }
  }

  /** Masters with the same keys and instances hold the same cells. */
  lemma KeptInstances(masters: Masters, masters': Masters, n: nat)
    requires LaidOut(masters, n)
    requires masters'.Keys == masters.Keys
    requires forall q :: q in masters ==> masters'[q].instances == masters[q].instances
    ensures LaidOut(masters', n)
    ensures forall i :: 0 <= i < n ==> InstanceOf(masters', n, i) == InstanceOf(masters, n, i)
  {
    forall i | 0 <= i < n
      ensures InstanceOf(masters', n, i) == InstanceOf(masters, n, i)
    {
      SlotInRange(n, i);
    }
  }

  /** An instance as `resetVisibility` leaves it: shown, with no
      `selected` entry. */
  function Unselected(s: Instance): (t: Instance)
    ensures t.visible && t.selected.None?
    ensures t.(visible := s.visible, selected := s.selected) == s
  {
    s.(visible := true, selected := None)
  }

  /** A master with all its instances reset. */
  function Cleared(m: Master): (c: Master)
    ensures c.updateCount == m.updateCount && |c.instances| == |m.instances|
    ensures forall o :: 0 <= o < |m.instances| ==> c.instances[o] == Unselected(m.instances[o])
  {
    m.(instances := seq(|m.instances|, o requires 0 <= o < |m.instances| => Unselected(m.instances[o])))
  }

  /** The sweep over keys `i..last`, skipping keys with no master. */
  function ResetFrom(masters: Masters, i: int, last: int): (r: Masters)
    decreases last + 1 - i
    ensures r.Keys == masters.Keys
    ensures forall p :: p in masters ==> r[p] == (if i <= p <= last then Cleared(masters[p]) else masters[p])
  {
    if i > last then masters
    else ResetFrom(if i in masters then masters[i := Cleared(masters[i])] else masters, i + 1, last)
  }

  /** `resetVisibility`: the sweep over keys `0..masterMap.size`. */
  function ResetVisibility(masters: Masters): (r: Masters)
    ensures r.Keys == masters.Keys
    ensures forall p :: p in masters && 0 <= p <= |masters| ==> r[p] == Cleared(masters[p])
    ensures forall p :: p in masters && !(0 <= p <= |masters|) ==> r[p] == masters[p]
  {
    ResetFrom(masters, 0, |masters|)
  }

  /** Keys `1..mc` are `mc` keys. */
  lemma {:induction false} KeyCount(masters: Masters, mc: nat)
    requires forall p :: p in masters <==> 1 <= p <= mc
    ensures |masters| == mc
  {
    if mc > 0 {
      var rest := masters - {mc};
      KeyCount(rest, mc - 1);
      assert masters.Keys == rest.Keys + {mc};
    } else {
      assert masters.Keys == {};
    }
  }

  /** On laid-out masters the sweep `0..size` reaches every master (key 0
      has none and is skipped), so every cell ends up shown and unselected,
      everything else kept. */
  lemma ResetVisibilityClearsAll(masters: Masters, n: nat)
    requires LaidOut(masters, n)
    ensures LaidOut(ResetVisibility(masters), n)
    ensures forall q :: q in masters ==> ResetVisibility(masters)[q].updateCount == masters[q].updateCount
    ensures forall i :: 0 <= i < n ==> InstanceOf(ResetVisibility(masters), n, i) == Unselected(InstanceOf(masters, n, i))
  {
    KeyCount(masters, MasterCount(n));
    var r := ResetVisibility(masters);
    assert forall q :: q in masters ==> r[q] == Cleared(masters[q]);
    forall i | 0 <= i < n
      ensures InstanceOf(r, n, i) == Unselected(InstanceOf(masters, n, i))
    {
      SlotInRange(n, i);
    }
  }
}

=== FILE: sparse_columns.dfy ===
/** The compressed-sparse-column expression matrix of an AnnData file
    (`/X/data`, `/X/indices`, `/X/indptr`): densifying one gene's column, and
    the per-gene density filter computed when the file is opened.
 */
module SparseColumns {
  import opened Wrappers

  /** The three arrays of the matrix. Columns are genes and rows are cells:
      the stored entries of gene `g` sit at positions
      `[indptr[g], indptr[g+1])` of `data` (values) and `indices` (rows). */
  datatype Csc = Csc(data: seq<real>, indices: seq<int>, indptr: seq<int>)

  /** Every stored entry at a position in `[lo, hi)` exists in both arrays and
      names a row of a vector of `numCells` entries. */
  predicate EntriesInRange(m: Csc, numCells: nat, lo: int, hi: int) {
    hi <= lo ||
    (0 <= lo && hi <= |m.data| && hi <= |m.indices| && forall k :: lo <= k < hi ==> 0 <= m.indices[k] < numCells)
  }

  /** `cscReader(col)` finishes without an index exception: the column has
      both of its `indptr` bounds, and each of its entries is addressable. */
  predicate ColumnReadable(m: Csc, numCells: nat, col: int) {
    0 <= col && col + 1 < |m.indptr| && EntriesInRange(m, numCells, m.indptr[col], m.indptr[col + 1])
  }

  /** The stored entry at position `k` names row `row`. */
  ghost predicate Names(m: Csc, k: int, row: int) {
    0 <= k < |m.indices| && m.indices[k] == row
  }

  /** Position `k` holds the last entry in `[lo, hi)` that names `row`. */
  ghost predicate LastWrite(m: Csc, lo: int, hi: int, row: int, k: int) {
    lo <= k < hi && Names(m, k, row) && forall k' :: k < k' < hi ==> !Names(m, k', row)
  }

  /** `x` is what a dense column built from the entries in `[lo, hi)` holds
      at `row` when the row started out as `initial`: the value of the last
      entry naming the row, or `initial` when no entry names it. */
  ghost predicate DenseEntry(m: Csc, lo: int, hi: int, row: int, initial: real, x: real) {
    || (exists k :: LastWrite(m, lo, hi, row, k) && k < |m.data| && x == m.data[k])
    || ((forall k :: lo <= k < hi ==> !Names(m, k, row)) && x == initial)
  }

  /** The writes of the `cscReader` loop: entries `lo .. hi-1` are stored
      into `v` in that order, so a later entry for a row overwrites an
      earlier one. */
  function Scatter(v: seq<real>, m: Csc, lo: int, hi: int): (r: seq<real>)
    requires EntriesInRange(m, |v|, lo, hi)
    ensures |r| == |v|
    decreases hi - lo
  {
    if hi <= lo then v
    else
      var w := Scatter(v, m, lo, hi - 1);
      w[m.indices[hi - 1] := m.data[hi - 1]]
  }

  /** Each row of a scatter holds the last write to it, or its old value. */
  lemma {:induction false} ScatterAt(v: seq<real>, m: Csc, lo: int, hi: int, row: int)
    requires EntriesInRange(m, |v|, lo, hi)
    requires 0 <= row < |v|
    ensures DenseEntry(m, lo, hi, row, v[row], Scatter(v, m, lo, hi)[row])
    decreases hi - lo
  {
    if hi > lo {
      var w := Scatter(v, m, lo, hi - 1);
      ScatterAt(v, m, lo, hi - 1, row);
      if m.indices[hi - 1] == row {
        assert LastWrite(m, lo, hi, row, hi - 1);
      } else if exists k :: LastWrite(m, lo, hi - 1, row, k) && k < |m.data| && w[row] == m.data[k] {
        var k :| LastWrite(m, lo, hi - 1, row, k) && k < |m.data| && w[row] == m.data[k];
        assert LastWrite(m, lo, hi, row, k);
      }
    }
  }

  /** `cscReader(col)`: a zero vector of `numCells` entries into which the
      column's stored entries are scattered. Any out-of-range index throws. */
  function ReadColumn(m: Csc, numCells: nat, col: int): (r: Result<seq<real>>)
    ensures r.Success? <==> ColumnReadable(m, numCells, col)
    ensures r.Failure? ==> r.error == IndexOutOfRange
    ensures r.Success? ==> |r.value| == numCells
  {
    if ColumnReadable(m, numCells, col) then
      Success(Scatter(seq(numCells, _ => 0.0), m, m.indptr[col], m.indptr[col + 1]))
    else
      Failure(IndexOutOfRange)
  }

  /** Row `row` of a densified column is the value of the last stored entry
      of that column naming the row, and 0 when no entry names it. */
  lemma ReadColumnEntries(m: Csc, numCells: nat, col: int)
    requires ColumnReadable(m, numCells, col)
    ensures forall row :: 0 <= row < numCells ==>
              DenseEntry(m, m.indptr[col], m.indptr[col + 1], row, 0.0, ReadColumn(m, numCells, col).value[row])
  {
    var zeros := seq(numCells, _ => 0.0);
    forall row | 0 <= row < numCells
      ensures DenseEntry(m, m.indptr[col], m.indptr[col + 1], row, 0.0, ReadColumn(m, numCells, col).value[row])
    {
      ScatterAt(zeros, m, m.indptr[col], m.indptr[col + 1], row);
    }
  }

  /** The one-column matrix holding only the stored entries of column `col`. */
  function Isolate(m: Csc, numCells: nat, col: int): (c: Csc)
    requires ColumnReadable(m, numCells, col)
    ensures ColumnReadable(c, numCells, 0)
  {
    var lo, hi := m.indptr[col], m.indptr[col + 1];
    if hi <= lo then Csc([], [], [0, 0])
    else Csc(m.data[lo..hi], m.indices[lo..hi], [0, hi - lo])
  }

  lemma {:induction false} ScatterShift(v: seq<real>, m: Csc, c: Csc, lo: int, hi: int)
    requires lo <= hi
    requires EntriesInRange(m, |v|, lo, hi)
    requires EntriesInRange(c, |v|, 0, hi - lo)
    requires forall k :: lo <= k < hi ==> c.data[k - lo] == m.data[k] && c.indices[k - lo] == m.indices[k]
    ensures Scatter(v, m, lo, hi) == Scatter(v, c, 0, hi - lo)
    decreases hi - lo
  {
    if hi > lo {
      ScatterShift(v, m, c, lo, hi - 1);
    }
  }

  /** The dense column depends only on the column's own slice of `data` and
      `indices`: stored entries of other columns have no effect on it. */
  lemma ColumnDependsOnlyOnSlice(m: Csc, numCells: nat, col: int)
    requires ColumnReadable(m, numCells, col)
    ensures ReadColumn(m, numCells, col) == ReadColumn(Isolate(m, numCells, col), numCells, 0)
  {
    var lo, hi := m.indptr[col], m.indptr[col + 1];
    var zeros := seq(numCells, _ => 0.0);
    if hi > lo {
      ScatterShift(zeros, m, Isolate(m, numCells, col), lo, hi);
    }
  }

  /** The number of entries of `v` that are not zero. */
  function NonzeroCount(v: seq<real>): nat {
    if |v| == 0 then 0 else (if v[0] != 0.0 then 1 else 0) + NonzeroCount(v[1..])
  }

  lemma {:induction false} NonzeroCountUpdate(v: seq<real>, j: nat, x: real)
    requires j < |v|
    ensures NonzeroCount(v[j := x]) + (if v[j] != 0.0 then 1 else 0) == NonzeroCount(v) + (if x != 0.0 then 1 else 0)
  {
    if j > 0 {
      assert v[j := x][1..] == v[1..][j - 1 := x];
      NonzeroCountUpdate(v[1..], j - 1, x);
    } else {
      assert v[j := x][1..] == v[1..];
    }
  }

  lemma {:induction false} ScatterNonzeroBound(v: seq<real>, m: Csc, lo: int, hi: int)
    requires lo <= hi
    requires EntriesInRange(m, |v|, lo, hi)
    ensures NonzeroCount(Scatter(v, m, lo, hi)) <= NonzeroCount(v) + (hi - lo)
    decreases hi - lo
  {
    if hi > lo {
      var w := Scatter(v, m, lo, hi - 1);
      ScatterNonzeroBound(v, m, lo, hi - 1);
      NonzeroCountUpdate(w, m.indices[hi - 1], m.data[hi - 1]);
    }
  }

  lemma {:induction false} NonzeroCountZeros(v: seq<real>)
    requires forall i :: 0 <= i < |v| ==> v[i] == 0.0
    ensures NonzeroCount(v) == 0
  {
    if |v| > 0 {
      NonzeroCountZeros(v[1..]);
    }
  }

  /** The rows of column `col` name distinct cells and its stored values are
      all nonzero (what a canonical CSC file holds). */
  ghost predicate CanonicalColumn(m: Csc, col: int)
    requires 0 <= col && col + 1 < |m.indptr|
  {
    && (forall k, k' :: 0 <= m.indptr[col] <= k < k' < m.indptr[col + 1] && k' < |m.indices| ==> m.indices[k] != m.indices[k'])
    && (forall k :: 0 <= m.indptr[col] <= k < m.indptr[col + 1] && k < |m.data| ==> m.data[k] != 0.0)
  }

  lemma {:induction false} ScatterNonzeroExact(v: seq<real>, m: Csc, lo: int, hi: int)
    requires lo <= hi
    requires EntriesInRange(m, |v|, lo, hi)
    requires forall k, k' :: lo <= k < k' < hi ==> m.indices[k] != m.indices[k']
    requires forall k :: lo <= k < hi ==> m.data[k] != 0.0
    requires forall row :: 0 <= row < |v| ==> v[row] == 0.0
    ensures NonzeroCount(Scatter(v, m, lo, hi)) == hi - lo
    decreases hi - lo
  {
    if hi == lo {
      NonzeroCountZeros(v);
    } else {
      var w := Scatter(v, m, lo, hi - 1);
      var row := m.indices[hi - 1];
      ScatterNonzeroExact(v, m, lo, hi - 1);
      ScatterAt(v, m, lo, hi - 1, row);
      assert forall k :: lo <= k < hi - 1 ==> !Names(m, k, row);
      assert w[row] == 0.0;
      NonzeroCountUpdate(w, row, m.data[hi - 1]);
      assert Scatter(v, m, lo, hi) == w[row := m.data[hi - 1]];
    }
  }

  /** A densified column has at most as many nonzero entries as the column
      stores, and exactly as many when its rows are distinct and its stored
      values nonzero. */
  lemma ReadColumnNonzeroCount(m: Csc, numCells: nat, col: int)
    requires ColumnReadable(m, numCells, col)
    ensures m.indptr[col] <= m.indptr[col + 1] ==>
              NonzeroCount(ReadColumn(m, numCells, col).value) <= m.indptr[col + 1] - m.indptr[col]
    ensures m.indptr[col] <= m.indptr[col + 1] && CanonicalColumn(m, col) ==>
              NonzeroCount(ReadColumn(m, numCells, col).value) == m.indptr[col + 1] - m.indptr[col]
  {
    var lo, hi := m.indptr[col], m.indptr[col + 1];
    var zeros := seq(numCells, _ => 0.0);
    if lo <= hi {
      NonzeroCountZeros(zeros);
      ScatterNonzeroBound(zeros, m, lo, hi);
      if CanonicalColumn(m, col) {
        ScatterNonzeroExact(zeros, m, lo, hi);
      }
    }
  }

  /** The 4-cell, 3-gene matrix with data `[5, 2]`, indices `[1, 3]` and
      indptr `[0, 1, 1, 2]`: gene 1 stores nothing, and there is no gene 3. */
  lemma ExampleColumns()
    ensures var m := Csc([5.0, 2.0], [1, 3], [0, 1, 1, 2]);
            && ReadColumn(m, 4, 0) == Success([0.0, 5.0, 0.0, 0.0])
            && ReadColumn(m, 4, 1) == Success([0.0, 0.0, 0.0, 0.0])
            && ReadColumn(m, 4, 2) == Success([0.0, 0.0, 0.0, 2.0])
            && ReadColumn(m, 4, 3) == Failure(IndexOutOfRange)
  {
    var m := Csc([5.0, 2.0], [1, 3], [0, 1, 1, 2]);
    var zeros := seq(4, _ => 0.0);
    assert Scatter(zeros, m, 0, 0) == zeros;
    assert Scatter(zeros, m, 1, 1) == zeros == [0.0, 0.0, 0.0, 0.0];
    assert zeros[1 := 5.0] == [0.0, 5.0, 0.0, 0.0];
    assert zeros[3 := 2.0] == [0.0, 0.0, 0.0, 2.0];
  }

  /** Strictly ascending integers. */
  predicate StrictlyIncreasing(s: seq<int>) {
    forall i, j :: 0 <= i < j < |s| ==> s[i] < s[j]
  }

  /** Gene `g` passes the density filter of the `init` block: its share of
      stored entries, `(indptr[g+1] - indptr[g]) / numCells`, exceeds 0.2.
      With no cells the source divides by a float zero, which gives +Infinity
      for a positive count (kept), NaN for zero and -Infinity for a negative
      count (both dropped). */
  predicate Informative(indptr: seq<int>, numCells: nat, g: nat)
    requires g + 1 < |indptr|
  {
    var stored := indptr[g + 1] - indptr[g];
    if numCells == 0 then stored > 0
    else (stored as real) / (numCells as real) > 0.2
  }

  /** The `init` loop building `nonZeroGenes`: it reads `indptr[g]` and
      `indptr[g + 1]` for every gene, so it throws unless `indptr` has an
      entry past the last gene. */
  method DensityFilter(indptr: seq<int>, numGenes: nat, numCells: nat) returns (r: Result<seq<nat>>)
    ensures r.Success? <==> numGenes == 0 || numGenes < |indptr|
    ensures r.Failure? ==> r.error == IndexOutOfRange
    ensures r.Success? ==> StrictlyIncreasing(r.value)
    ensures r.Success? ==> forall g: nat :: g in r.value <==> g < numGenes && Informative(indptr, numCells, g)
  {
    var genes: seq<nat> := [];
    var g := 0;
    while g < numGenes
      invariant 0 <= g <= numGenes
      invariant g > 0 ==> g < |indptr|
      invariant StrictlyIncreasing(genes)
      invariant forall j :: 0 <= j < |genes| ==> genes[j] < g
      invariant forall h: nat :: h in genes <==> h < g && Informative(indptr, numCells, h)
    {
      if g + 1 >= |indptr| {
        return Failure(IndexOutOfRange);
      }
      if Informative(indptr, numCells, g) {
        genes := genes + [g];
      }
      g := g + 1;
    }
    return Success(genes);
  }
}

=== FILE: wrappers.dfy ===
/** Failure-carrying results shared by every part of the model.

    The Kotlin source signals failure by throwing; here each throw becomes a
    `Failure` carrying the cause, so that a contract can say exactly when an
    operation throws and what it returns otherwise.
 */
module Wrappers {

  /** A value that may be absent (a Kotlin nullable, or a missing map entry). */
  datatype Option<+T> = None | Some(value: T)

  /** Why an operation of the model throws. */
  datatype Error =
    /** An array, list or string index outside its bounds. */
    | IndexOutOfRange
    /** `h5adAnnotationReader` was given a path it does not read. */
    | NotAnnotationPath
    /** The HDF5 file has no dataset at the requested path. */
    | MissingDataset
    /** `maxOrNull()!!` applied to an empty vector. */
    | EmptyColumn

  /** Either the value an operation returns, or the reason it throws. */
  datatype Result<+R> = Success(value: R) | Failure(error: Error)
}
